=== FILE: README.md ===
# when-does-it-get-good: the vote lifecycle in Dafny

"When does it get good?" lets viewers of a TV series vote for the episode
where the show starts being worth watching. This project models the core
of that site as pure Dafny functions over immutable records and proves
properties of the model. The core covers:

- **the voter fingerprint**: a SHA-256 digest of `ip-userAgent`.
- **the vote store**: one vote per (show, fingerprint). A first vote inserts a row and a re-vote overwrites the existing row's season, episode and time.
- **the statistics of a show**: the per-episode breakdown, the tag tallies, a plurality verdict with its tie-break, and the rounded percentage.
- **the second verdict routine** `calculateVerdict`.
- **the show cache**: shows are refreshed from the TMDB catalogue when older than 24 hours.
- **the `POST /api/vote` handler**, which chains the above.
- **the pure parts of the three React components**:
  - the chart rows and their order,
  - the URL slug and the search gate,
  - the voting form's tag toggle and episode reset.
- **the TMDB helpers**: the image URL, the auth mode, and the error-to-null mapping.

The database is a sequence of records with an id counter (`VoteTable`, `ShowTable`). Every store operation returns a new table.

Things the code reads from outside become parameters:

- `Date.now()` is an integer `now`.
- SHA-256 (section 6.2 of FIPS 180-4) is a function parameter `sha256: string -> Digest`. The result type `Digest` is exactly the strings of 64 lower-case hex digits.
- TMDB responses are values of `FetchOutcome`, and an already fetched `Option<ShowDetails>`.
- A storage call that throws is a `Fault` argument of the handler.

`Math.round(100 * count / total)` is integer round-half-up, `(200*count + total) / (2*total)`.

An object's entries are kept as an ordered list of `Entry(key, count)` in insertion order, the order `Object.entries` gives for keys like `"1-2"`. This makes the tie-break exact relative to the order in which the show's rows are returned:

- `getVoteStats` sorts the entries by descending count with a stable sort and takes the head.
- `calculateVerdict` scans them, replacing its best only on a strictly larger count.

Both pick the first entry of maximum count (`Grouping.FirstMax`). `Shows.CalculateVerdict` is proved to agree with `Votes.ComputeStats`.

Modules, one per source file plus shared helpers:

| module | file | models |
|---|---|---|
| `Wrappers` | wrappers.dfy | `Option` |
| `Text` | text.dfy | decimal rendering, `Number(...)` of a decimal string, `split`, ASCII `toLowerCase`, `trim`, UTF-16 `length` |
| `EpisodeKey` | episode_key.dfy | the `"s-e"` key and `key.split('-').map(Number)` |
| `Grouping` | grouping.dfy | counting pass, first maximum, stable descending sort, rounded percentage |
| `Votes` | votes.dfy | `src/lib/votes.ts` |
| `Shows` | shows.dfy | `getOrCreateShow` and `calculateVerdict` of `src/lib/shows.ts` |
| `Tmdb` | tmdb.dfy | `src/lib/tmdb.ts` |
| `VoteRoute` | vote_route.dfy | `src/pages/api/vote.ts` |
| `VoteChart` | vote_chart.dfy | `src/components/VoteChart.tsx` |
| `SearchBar` | search_bar.dfy | `src/components/SearchBar.tsx` |
| `VotingWidget` | voting_widget.dfy | `src/components/VotingWidget.tsx` |

Two behaviours of the code are easy to miss:

- A re-vote does not overwrite the stored tag. The update branch of `submitVote` writes only season, episode and created_at.
- The percentage can be 0. `Votes.SpreadVotesGiveZeroPercent` gives an instance: 201 votes for 201 different episodes.

The insert branch of `submitVote` uses names that are bound nowhere (see "## Findings"). `Votes.SubmitVote` is the corrected submission, and `VoteRoute.HandleVote` chains it; `VoteRoute.FirstVoteAnswers500AsWritten` states what the route does with the submission as written.

String lengths are JavaScript's: `Text.Utf16Length` counts UTF-16 code units, so a code point above U+FFFF has length 2.

## Model

| member | source | states |
|---|---|---|
| Votes.FingerprintOfJoined | src/lib/votes.ts:4-7 | the fingerprint depends only on the joined text `ip + "-" + userAgent`, and is a 64-character lower-case hex digest |
| Votes.FingerprintSeparatorClash | src/lib/votes.ts:4-7 | ("a-b", "c") and ("a", "b-c") give the same fingerprint, so they are one voter |
| Votes.FindVote | src/lib/votes.ts:10-15 | `findFirst`: absent iff no row has that show and fingerprint; otherwise the first such row |
| Votes.CanUserVote | src/lib/votes.ts:9-18 | true iff no stored vote has that show id and fingerprint |
| Votes.SubmitVote | src/lib/votes.ts:20-48 | existing (show, fingerprint) row: only its season, episode and created_at change; id, show, fingerprint and tag are kept; all other rows and the row count are unchanged. No such row: exactly one row is appended with the next id, the given show, season, episode and fingerprint, and the tag or null |
| Votes.SubmitKeepsWellFormed | src/lib/votes.ts:20-48 | a store with at most one vote per (show, fingerprint) and distinct ids below the counter keeps both properties after a submission |
| Votes.SubmitClosesVoting | src/lib/votes.ts:9-48 | after a submission, `canUserVote` is false for that voter and show |
| Votes.ResubmitAddsNoRow | src/lib/votes.ts:21-37 | submitting again for the same voter and show never adds a row |
| Votes.ReVoteReplaces | src/lib/votes.ts:21-37 | after a vote and a re-vote, the voter has exactly one row for the show and it holds the second season and episode |
| Votes.SubmitVoteAsWritten | src/lib/votes.ts:20-47 | as written, the submission throws exactly when the voter has no row yet; otherwise it is the corrected submission's in-place update, adding no row |
| Votes.FirstVoteThrowsAsWritten | src/lib/votes.ts:39-47 | the first vote on an empty store throws as written, while the corrected submission stores the row `(1, show 1, S1E1, null tag, fingerprint, now)` |
| Votes.VotesFor | src/lib/votes.ts:51-53 | `findMany` by show id: a row is kept iff it belongs to the show, and no rows are invented |
| Votes.VotesForMultiplicity | src/lib/votes.ts:51-53 | each of the show's rows appears as often as it is stored, and no other row appears |
| Votes.VotesForConcat | src/lib/votes.ts:51-53 | the rows of a concatenation are those of each part, in order, so the show's rows come back in the order of the stored sequence, which stands for the order the query returns |
| Votes.VotesForOne | src/lib/votes.ts:51-53 | a single row is kept iff it belongs to the show |
| Votes.TagCountsDisjoint | src/lib/votes.ts:58-69 | two different tags together count no more votes than there are |
| Votes.ComputeStats | src/lib/votes.ts:55-83 | null iff no votes. Otherwise: totalVotes is the number of votes; the breakdown has one entry per distinct key, in first-vote order, each counting that key's votes, together summing to the total; the verdict is the pair read from the first entry of maximum count; the percentage is its rounded share; the two tag counts count exactly the votes with that tag |
| Votes.GetVoteStats | src/lib/votes.ts:50-57 | null iff the show has no stored votes; otherwise totalVotes is the number of the show's rows |
| Votes.StatsTagsBounded | src/lib/votes.ts:58-69 | worth-wait + dont-waste is at most totalVotes |
| Votes.KeyCountIsPairCount | src/lib/votes.ts:63-66 | for non-negative numbers, a key's breakdown count is the number of votes naming that (season, episode) |
| Votes.VerdictIsPlurality | src/lib/votes.ts:72-80 | for non-negative numbers, some vote names the verdict pair, no pair has more votes, and the percentage is the verdict's rounded share |
| Votes.VerdictTieBreak | src/lib/votes.ts:72-73 | every entry tied with the verdict's count had its first vote no earlier than the verdict's, in the order the rows were returned |
| Votes.UnanimousVerdict | src/lib/votes.ts:72-80 | when every vote names the same non-negative season and episode, that pair is the verdict at exactly 100 percent |
| Votes.SpreadVotesGiveZeroPercent | src/lib/votes.ts:80 | more than 200 votes for pairwise different episodes give percentage 0 |
| Votes.ThreeVoteExample | src/lib/votes.ts:50-84 | votes S1E1, S1E1, S1E2 give verdict (1, 1), 3 votes, 67 percent and breakdown `1-1: 2, 1-2: 1` |
| Grouping.TallyCorrect | src/lib/votes.ts:63-66 | the counting pass yields distinct keys covering exactly the input, each counted as often as it occurs, in order of first occurrence, with counts summing to the input length |
| Grouping.FirstMax | src/lib/shows.ts:111-116 | the index of an entry with a count no other entry exceeds, with every earlier entry strictly smaller |
| Grouping.SortDesc | src/lib/votes.ts:72 | the sort by descending count is a permutation of its input, ordered by non-increasing count |
| Grouping.SortHeadIsFirstMax | src/lib/votes.ts:72-73 | the head of the stable descending sort is the first entry of maximum count |
| Grouping.RoundedPercent | src/lib/votes.ts:80 | the rounded percentage of a part of a non-empty whole is at most 100, and exactly 100 when part = whole |
| Grouping.RoundedPercentIsNearest | src/lib/votes.ts:80 | round-half-up of 100·part/whole: `2p·whole <= 200·part + whole < 2(p+1)·whole`, so p is within one half of the exact share |
| EpisodeKey.KeyParse | src/lib/shows.ts:103-118 | reading `${s}-${e}` back with `split('-').map(Number)` gives (s, e) for non-negative numbers; a negative season reads as (0, -s) and a negative episode as (s, 0) |
| EpisodeKey.KeyInjective | src/lib/votes.ts:64 | different non-negative pairs have different keys |
| EpisodeKey.NegativeSeasonMisread | src/lib/votes.ts:64-74 | season -1, episode 2 is keyed "-1-2" and read back as (0, 1) |
| Shows.FindShow | src/lib/shows.ts:6-8 | `findUnique` by TMDB id: absent iff no row has the id, otherwise the first such row |
| Shows.GetOrCreateShow | src/lib/shows.ts:4-46 | unknown id: fetches; without details returns null with the store unchanged; with details inserts one row with that id, the fetched title, poster and seasons, and last_updated = now. Known and not older than 24 hours (strict `<`): returned unchanged, nothing fetched. Known and stale: fetches; with details only title, poster, seasons and last_updated change, in place; without details the old row is returned unchanged |
| Shows.ResolveKeepsTmdbIdsUnique | src/lib/shows.ts:11-23 | resolution never gives two rows the same TMDB id |
| Shows.ResolvedShowIsStored | src/lib/shows.ts:4-46 | a returned show has the requested TMDB id and is the stored row for it |
| Shows.ResolveAgainIsStable | src/lib/shows.ts:26-42 | once a resolution returned a show, and did not leave a stale show whose refetch failed, resolving again at the same moment fetches nothing and changes nothing |
| Shows.FailedRefreshFetchesAgain | src/lib/shows.ts:26-42 | a stale show whose refetch failed is left as it was, and the next resolution fetches again |
| Shows.NullTimestampIsStale | src/lib/shows.ts:26-29 | a null last_updated counts as the epoch, so the show is stale |
| Shows.DayOldIsFresh | src/lib/shows.ts:26-29 | a show updated exactly 24 hours ago is not stale and is not refetched |
| Shows.CalculateVerdict | src/lib/shows.ts:97-126 | null exactly for no votes; otherwise the same season, episode, total and percentage as the statistics compute |
| Shows.ScanForMax | src/lib/shows.ts:108-116 | the scan starting at 0 and keeping strictly larger counts ends on the first entry of maximum count |
| Tmdb.AuthFor | src/lib/tmdb.ts:11-13 | bearer mode iff the key is defined and longer than 50 UTF-16 code units; bearer mode gives an `Authorization: Bearer key` header and no query parameter, otherwise no header and `&api_key=` + key |
| Tmdb.BmpKeyIsBearer | src/lib/tmdb.ts:11 | for a key with no code point above U+FFFF, bearer mode is exactly a key of more than 50 characters |
| Text.Utf16LengthBmp | src/lib/tmdb.ts:11 | a string's UTF-16 length equals its number of code points iff none lies above U+FFFF |
| Tmdb.SearchShows | src/lib/tmdb.ts:53-72 | a request is made iff the query is non-empty; results only from an ok response, else [] |
| Tmdb.GetShowDetails | src/lib/tmdb.ts:74-88 | the body iff the response is ok; a 404, another status or a thrown error give null |
| Tmdb.GetSeasonDetails | src/lib/tmdb.ts:90-104 | the body iff the response is ok; a 404, another status or a thrown error give null |
| Tmdb.ImageUrl | src/lib/tmdb.ts:106-109 | the placeholder for a null or empty path, else `https://image.tmdb.org/t/p/` + size + path |
| Tmdb.PosterUrl | src/lib/tmdb.ts:106-109 | with the default size, a non-empty path gives `https://image.tmdb.org/t/p/w500` + path, else the placeholder |
| Tmdb.ImageUrlInjective | src/lib/tmdb.ts:106-109 | a non-empty path never gives the placeholder, and different paths give different URLs |
| VoteRoute.ClientIp | src/pages/api/vote.ts:16 | the client address if non-empty, else x-forwarded-for if non-empty, else "unknown"; never empty |
| VoteRoute.HandleVote | src/pages/api/vote.ts:10-12 | a missing or zero tmdbId, season or episode gives 400 with no fingerprint and no store change |
| VoteRoute.BadRequestIffMissingField | src/pages/api/vote.ts:10-12 | status 400 exactly when a required field is missing or zero |
| VoteRoute.FingerprintFromRequest | src/pages/api/vote.ts:14-18 | the voter is sha256(ip + "-" + userAgent), where the user agent defaults to '' |
| VoteRoute.UnknownShowWritesNoVote | src/pages/api/vote.ts:21-24 | an unresolvable show gives 404, no statistics, and no vote written |
| VoteRoute.SuccessSubmitsOnce | src/pages/api/vote.ts:10-33 | a 200 means the fields were present, nothing threw and the show resolved; the votes are exactly one submission for the resolved show id with the request's season, episode and tag, and the reply carries that show's statistics |
| VoteRoute.SuccessCountsVote | src/pages/api/vote.ts:26-33 | after a 200 the statistics exist and count at least one vote, and the voter can no longer vote on that show |
| VoteRoute.FirstVoteAnswers500AsWritten | src/pages/api/vote.ts:26-37 | with `submitVote` as written, a voter without a row on the resolved show makes the submission throw; with that throw passed as the handler's `SubmitFault` argument, the handler answers 500 with no statistics and no vote stored |
| VoteRoute.StatusCodes | src/pages/api/vote.ts:5-38 | the status is 200, 400, 404 or 500, and 500 iff a storage call throws after validation |
| VoteRoute.AtMostOneNewRow | src/pages/api/vote.ts:5-38 | whatever the outcome, at most one vote row is added and none removed |
| VoteChart.ChartData | src/components/VoteChart.tsx:17-39 | null stats give no rows; otherwise one row per breakdown entry, sorted by season then episode, a permutation of the entries' rows |
| VoteChart.SortRows | src/components/VoteChart.tsx:36-39 | the comparator sort is a permutation ordered by season, then episode |
| VoteChart.RowsMatchEntries | src/components/VoteChart.tsx:26-35 | every row is some entry's row with its count and parsed numbers, every entry has a row, and each label is `S{season}E{episode}` |
| VoteChart.BreakdownKeysReadBack | src/components/VoteChart.tsx:28 | for non-negative votes, each row's numbers key back to its entry's key |
| VoteChart.OneHighlightedBar | src/components/VoteChart.tsx:69-76 | for non-negative votes, exactly one row has the verdict's season and episode |
| SearchBar.Collapse | src/components/SearchBar.tsx:111 | the replace keeps a leading slug character, and is empty iff its input is |
| SearchBar.CollapseShape | src/components/SearchBar.tsx:111 | the replace yields only [a-z0-9-] and never "--" |
| SearchBar.SlugShape | src/components/SearchBar.tsx:111 | a slug contains only [a-z0-9-] and never two dashes in a row |
| SearchBar.CollapseRun | src/components/SearchBar.tsx:111 | a maximal run of other characters after a run of slug characters becomes exactly one '-' |
| SearchBar.SlugKeepsLettersAndDigits | src/components/SearchBar.tsx:111 | the slug's letters and digits are the name's ASCII letters and digits, in order, lower-cased |
| SearchBar.SlugIdempotent | src/components/SearchBar.tsx:111 | slugging a slug changes nothing |
| SearchBar.Fire | src/components/SearchBar.tsx:41-48 | the timer callback sends a lookup iff the trimmed query has at least 2 UTF-16 code units; otherwise it clears the results and closes the dropdown |
| SearchBar.Respond | src/components/SearchBar.tsx:49-58 | the response, applied to whatever the state is when it arrives: found hits replace the results and open the dropdown, a failure changes neither, loading ends |
| SearchBar.LateResponseAfterClear | src/components/SearchBar.tsx:40-62 | a found response that arrives after the clear button opens the dropdown for the empty query, breaking the gate |
| SearchBar.Settle | src/components/SearchBar.tsx:40-62 | a search is made iff the trimmed query has at least 2 UTF-16 code units; otherwise results become [] and the dropdown closes; a found search replaces the results and opens; a failed one keeps both |
| SearchBar.OnFocus | src/components/SearchBar.tsx:89 | focus opens the dropdown only when the trimmed query has at least 2 UTF-16 code units, and otherwise changes nothing |
| SearchBar.OnChange | src/components/SearchBar.tsx:88 | typing sets the query to the input's text and changes nothing else |
| SearchBar.TypingLeavesShortQueryOpen | src/components/SearchBar.tsx:40-88 | typing a query too short to search leaves an open dropdown open, outside the gate, until the timer fires and closes it |
| SearchBar.OnClear | src/components/SearchBar.tsx:93 | clear sets the query to '', the results to [] and closes the dropdown |
| SearchBar.Dropdown | src/components/SearchBar.tsx:101-135 | closed iff not open; otherwise one link per result, or "no shows found" iff there are no results and nothing is loading |
| SearchBar.SettleGates | src/components/SearchBar.tsx:40-62 | when no event comes between a lookup and its response, after the debounced search settles an open dropdown always belongs to a searchable query |
| SearchBar.HandlersKeepGate | src/components/SearchBar.tsx:89-93 | focus and clear keep that gate, and the initial state satisfies it |
| SearchBar.ClearThenSettle | src/components/SearchBar.tsx:42-46 | after a clear, the next timer makes no search, the dropdown stays closed and the clear button is hidden |
| SearchBar.PaddedCharSearched | src/components/SearchBar.tsx:42 | one character with white space around it is searched iff it lies above U+FFFF, since only then is its `length` 2 |
| SearchBar.BlankIsNotSearched | src/components/SearchBar.tsx:42 | a query of white space only is never searched |
| VotingWidget.ToggleTag | src/components/VotingWidget.tsx:100-110 | clicking the selected tag clears it, clicking the other selects it, and nothing else changes |
| VotingWidget.AtMostOneSelected | src/components/VotingWidget.tsx:100-111 | the two buttons are never both selected, and the tag stays null, 'worth-wait' or 'dont-waste' |
| VotingWidget.ToggleTwice | src/components/VotingWidget.tsx:100-110 | two clicks on one button restore the form iff the tag was null or that button's; from the other tag they end with none |
| VotingWidget.Options | src/components/VotingWidget.tsx:75-89 | `Array.from({length: n}, (_, i) => i + 1)` has max(n, 0) elements, the i-th being i + 1 |
| VotingWidget.OptionsAreRange | src/components/VotingWidget.tsx:75-89 | the season and episode options are exactly 1..n |
| VotingWidget.EpisodesLoaded | src/components/VotingWidget.tsx:19-36 | after n episodes load, the count is n; the episode resets to 1 iff the episode captured when that fetch began is past n, else the current one is kept; a failed load changes only the loading flag |
| VotingWidget.LoadedEpisodeIsOffered | src/components/VotingWidget.tsx:25-27 | after n >= 1 episodes load, the chosen episode is an option iff the captured episode was past n or the current one is at most n; always when no event came between the fetch's start and end |
| VotingWidget.OverlappingFetchesKeepEpisodePastCount | src/components/VotingWidget.tsx:19-36 | a fetch that captured episode 3 and loads 5 episodes leaves an episode 8 chosen since then, past the 5 offered |
| VotingWidget.Payload | src/components/VotingWidget.tsx:47 | the request carries the form's tmdbId, season, episode and tag |
| VotingWidget.BeginSubmit | src/components/VotingWidget.tsx:38-41 | submitting clears the message and disables the button |
| VotingWidget.FinishSubmit | src/components/VotingWidget.tsx:50-62 | success message iff the reply is ok; otherwise the body's error or 'SUBMISSION ERROR', or the network message when something threw; submitting ends |
| VotingWidget.StepKeepsSane | src/components/VotingWidget.tsx:70-117 | every action the form offers keeps season and episode positive and the tag valid |
| VotingWidget.RunKeepsSane | src/components/VotingWidget.tsx:11-36 | every form reachable from a sane one is sane, for any interleaving of overlapping episode fetches |
| VotingWidget.ReachablePayloadIsAccepted | src/components/VotingWidget.tsx:47 | for a non-zero tmdbId, the payload of any reachable form passes the handler's missing-field check with a positive season and episode, and its tag is valid |

## Left out

- SHA-256 internals: the digest is a function parameter whose results are 64 hex characters; no property of the hash beyond determinism is used.
- Prisma semantics: tables are sequences with an id counter. The database does `getShowWithVotes` and `getTrendingShows` (`src/lib/shows.ts:48-95`): their grouping, ordering and limit are not modelled.
- The check-then-act race between `findFirst` and `create`/`update` in `submitVote`: calls are sequential.
- Votes.SubmitVote: created_at on insert is taken to be `now`, the column's default; the insert code does not set it.
- Grouping.RoundedPercent: integer round-half-up stands in for `Math.round` on a double quotient, which can differ at exact .5 boundaries where the double is rounded first.
- Votes.ComputeStats: tag recognition is membership in {'worth-wait', 'dont-waste'}; in JavaScript a tag such as "constructor" also passes `tagCounts[v.tag] !== undefined` and would create an extra key.
- VoteRoute.HandleVote: JSON parsing, a body that is not JSON, and `Number(...)` of non-numeric values are not modelled: fields arrive as optional integers and strings.
- A vote row whose show_id is null is not modelled; every row belongs to a show.
- Network and environment: fetch calls, response bodies beyond their shape, headers beyond the auth choice, and loading the API key from the environment.
- React: rendering, hooks, the 300 ms debounce, the 2 s reload, the mousedown listener that closes the search dropdown, recharts and styling.
- SearchBar.SettleGates: stated for `Settle`, the debounced effect with no event between its lookup and the response. The cleanup cancels only the timer, so a response arriving after a clear or a new query is applied anyway; `SearchBar.LateResponseAfterClear` shows that the gate then fails.
- SearchBar.ClearThenSettle: covers the timer that runs after a clear. A lookup already in flight at the clear reopens the dropdown when it answers (`SearchBar.LateResponseAfterClear`).
- SearchBar.Settle: a response to an earlier query arriving after the query changed shows that query's hits under the new one. `Respond` allows this, but no lemma states it.
- SearchBar.Slug: `toLowerCase` is modelled on ASCII letters only; other characters are kept as they are and then replaced by the slug pattern.
- SearchBar.SlugKeepsLettersAndDigits: JavaScript's `toLowerCase` maps a few non-ASCII code points to ASCII letters, U+212A KELVIN SIGN to "k" and U+0130 to "i" followed by U+0307; the source's slug of such a name holds that letter, while the model's replaces the code point by a dash, so for names containing them the lemma does not describe the program.
- Votes.VotesFor: `findMany` has no `orderBy`, so the order of the show's rows, and with it which of several tied episodes wins (`Votes.VerdictTieBreak`, `Shows.CalculateVerdict`), is whatever the database returns. The model returns them in the stored sequence's order, and a re-vote keeps its row's place there, while a database may return an updated row after rows inserted later.
- The search results' poster URL (`w92` size and its own placeholder) and first-air year are not modelled.
- Keys of negative seasons or episodes are read back wrongly (`EpisodeKey.NegativeSeasonMisread`). The route does not reject them, since only a missing or zero value is refused; the voting form never sends them (`VotingWidget.ReachablePayloadIsAccepted`). Properties of the verdict pair and the highlighted bar are stated for non-negative numbers.
- `src/components/FeedbackForm.tsx`, `src/pages/api/feedback.ts`, `src/pages/api/search.ts`, `src/pages/api/shows/[tmdb_id].ts` and `astro.config.mjs` are form, CRUD and configuration glue and are not part of this model.

## Findings

| source | as written | input that shows it | evidently intended | confidence | as-written member | corrected member |
|---|---|---|---|---|---|---|
| src/lib/votes.ts:39-47 | the insert branch of `submitVote` reads `tag` and `uniqueFingerprint`, which are bound nowhere in the module (the function takes 4 parameters while `src/pages/api/vote.ts:26` passes 5), so evaluating the create data throws a ReferenceError | any first vote of a voter on a show, e.g. show 1, S1E1 on an empty store: the handler answers 500 and no vote is stored | take `tag` as a fifth parameter, store `tag \|\| null`, and store the `fingerprint` argument | high, not executed | Votes.SubmitVoteAsWritten | Votes.SubmitVote |

=== FILE: episode_key.dfy ===
/**
 * The "season-episode" key under which votes are grouped
 * (`${season_no}-${episode_no}`) and its reading back with
 * `key.split('-').map(Number)`.
 */
module EpisodeKey {
  import opened Wrappers
  import opened Text

  /** The breakdown key of a (season, episode) pair. */
  function Key(season: int, episode: int): string {
    IntStr(season) + "-" + IntStr(episode)
  }

  /**
   * `const [season, episode] = key.split('-').map(Number)`: the numbers in
   * the first two pieces. `None` when there are fewer than two pieces or a
   * piece is not a number.
   */
  function ParseKey(key: string): Option<(int, int)> {
    var parts := Split(key, '-');
    if |parts| < 2 then None
    else match (JsNumber(parts[0]), JsNumber(parts[1]))
      case (Some(s), Some(e)) => Some((s, e))
      case _ => None
  }

  /**
   * The (season, episode) a breakdown key stands for. Every key built by
   * `Key` parses (lemma `KeyParse`), so the fallback is never taken for the
   * keys this system builds.
   */
  function KeyPair(key: string): (int, int) {
    ParseKey(key).GetOr((0, 0))
  }

  /** A key of non-negative numbers reads back as its pair. */
  lemma KeyRoundTrip(season: int, episode: int)
    requires season >= 0 && episode >= 0
    ensures KeyPair(Key(season, episode)) == (season, episode)
  {
    ParseNatural(season, episode);
  }

  /**
   * What `split('-').map(Number)` reads back from a key. For non-negative
   * numbers it is the pair itself; a negative season or episode has its
   * own '-' sign taken for a separator.
   */
  lemma KeyParse(season: int, episode: int)
    ensures season >= 0 && episode >= 0 ==> ParseKey(Key(season, episode)) == Some((season, episode))
    ensures season < 0 ==> ParseKey(Key(season, episode)) == Some((0, -season))
    ensures season >= 0 && episode < 0 ==> ParseKey(Key(season, episode)) == Some((season, 0))
    ensures ParseKey(Key(season, episode)).Some?
  {
    if season < 0 {
      ParseNegativeSeason(season, episode);
    } else if episode < 0 {
      ParseNegativeEpisode(season, episode);
    } else {
      ParseNatural(season, episode);
    }
  }

  /** The pieces a two-part split yields determine what `ParseKey` returns. */
  lemma ParseFromPieces(key: string, a: string, b: string, rest: seq<string>)
    requires Split(key, '-') == [a, b] + rest
    requires JsNumber(a).Some? && JsNumber(b).Some?
    ensures ParseKey(key) == Some((JsNumber(a).value, JsNumber(b).value))
  {
    var parts := Split(key, '-');
    assert parts[0] == a && parts[1] == b;
  }

  lemma ParseNatural(season: int, episode: int)
    requires season >= 0 && episode >= 0
    ensures ParseKey(Key(season, episode)) == Some((season, episode))
  {
    var d := NatStr(season);
    var d' := NatStr(episode);
    DigitsHaveNoDash(d);
    DigitsHaveNoDash(d');
    assert Key(season, episode) == d + ['-'] + d';
    SplitPiece(d, '-', d');
    SplitWhole(d', '-');
    NatStrRoundTrip(season);
    NatStrRoundTrip(episode);
    ParseFromPieces(Key(season, episode), d, d', []);
  }

  lemma ParseNegativeSeason(season: int, episode: int)
    requires season < 0
    ensures ParseKey(Key(season, episode)) == Some((0, -season))
  {
    NegativeSeasonPieces(season, episode);
    EmptyIsZero();
    NatStrRoundTrip(-season);
    ParseFromPieces(Key(season, episode), "", NatStr(-season), Split(IntStr(episode), '-'));
  }

  /** The sign of a negative season is taken for a separator, leaving an empty first piece. */
  lemma NegativeSeasonPieces(season: int, episode: int)
    requires season < 0
    ensures Split(Key(season, episode), '-') == ["", NatStr(-season)] + Split(IntStr(episode), '-')
  {
    var d := NatStr(-season);
    var tail := IntStr(episode);
    DigitsHaveNoDash(d);
    assert Key(season, episode) == ['-'] + (d + ['-'] + tail);
    SplitLeading('-', d + ['-'] + tail);
    SplitPiece(d, '-', tail);
  }

  lemma ParseNegativeEpisode(season: int, episode: int)
    requires season >= 0 && episode < 0
    ensures ParseKey(Key(season, episode)) == Some((season, 0))
  {
    NegativeEpisodePieces(season, episode);
    EmptyIsZero();
    NatStrRoundTrip(season);
    ParseFromPieces(Key(season, episode), NatStr(season), "", Split(NatStr(-episode), '-'));
  }

  /** The sign of a negative episode is taken for a separator, leaving an empty second piece. */
  lemma NegativeEpisodePieces(season: int, episode: int)
    requires season >= 0 && episode < 0
    ensures Split(Key(season, episode), '-') == [NatStr(season), ""] + Split(NatStr(-episode), '-')
  {
    var d := NatStr(season);
    var d' := NatStr(-episode);
    DigitsHaveNoDash(d);
    assert Key(season, episode) == d + ['-'] + (['-'] + d');
    SplitPiece(d, '-', ['-'] + d');
    SplitLeading('-', d');
  }

  /** Distinct non-negative pairs have distinct keys. */
  lemma KeyInjective(s1: int, e1: int, s2: int, e2: int)
    requires s1 >= 0 && e1 >= 0 && s2 >= 0 && e2 >= 0
    requires Key(s1, e1) == Key(s2, e2)
    ensures s1 == s2 && e1 == e2
  {
    KeyParse(s1, e1);
    KeyParse(s2, e2);
  }

  /** Season -1, episode 2 is read back as season 0, episode 1. */
  lemma NegativeSeasonMisread()
    ensures Key(-1, 2) == "-1-2"
    ensures KeyPair(Key(-1, 2)) == (0, 1)
  {
    KeyParse(-1, 2);
  }
}

=== FILE: grouping.dfy ===
/**
 * Grouping and plurality, shared by `getVoteStats` and `calculateVerdict`:
 * the per-key counts built by one left-to-right pass (`counts[key] =
 * (counts[key] || 0) + 1`), the entries of that object in insertion order,
 * the first entry with the largest count, the stable descending sort by
 * count, and `Math.round` of a percentage.
 */
module Grouping {
  import opened Wrappers

  /** One `[key, count]` pair of `Object.entries(counts)`. */
  datatype Entry = Entry(key: string, count: nat)

  /** How many times `k` occurs in `ks`. */
  function Occurrences(ks: seq<string>, k: string): nat {
    if |ks| == 0 then 0
    else Occurrences(ks[..|ks| - 1], k) + (if ks[|ks| - 1] == k then 1 else 0)
  }

  /** The position of the first occurrence of `k` in `ks`. */
  function FirstIndex(ks: seq<string>, k: string): (i: nat)
    requires k in ks
    ensures i < |ks| && ks[i] == k && k !in ks[..i]
  {
    if ks[0] == k then 0
    else
      var j := FirstIndex(ks[1..], k);
      assert ks[..j + 1] == [ks[0]] + ks[1..][..j];
      j + 1
  }

  function KeysOf(es: seq<Entry>): (r: seq<string>)
    ensures |r| == |es| && forall i :: 0 <= i < |es| ==> r[i] == es[i].key
  {
    seq(|es|, i requires 0 <= i < |es| => es[i].key)
  }

  predicate DistinctKeys(es: seq<Entry>) {
    forall i, j :: 0 <= i < j < |es| ==> es[i].key != es[j].key
  }

  /** The sum of the counts. */
  function Total(es: seq<Entry>): nat {
    if |es| == 0 then 0 else Total(es[..|es| - 1]) + es[|es| - 1].count
  }

  /** The position of the entry for `k`. */
  function Find(es: seq<Entry>, k: string): (r: Option<nat>)
    ensures r.None? <==> k !in KeysOf(es)
    ensures r.Some? ==> r.value < |es| && es[r.value].key == k
  {
    if |es| == 0 then None
    else if es[|es| - 1].key == k then Some(|es| - 1)
    else
      var r := Find(es[..|es| - 1], k);
      assert KeysOf(es[..|es| - 1]) == KeysOf(es)[..|es| - 1];
      r
  }

  /** One step of the pass: add one to the entry for `k`, or append `[k, 1]`. */
  function Bump(es: seq<Entry>, k: string): seq<Entry> {
    match Find(es, k)
    case Some(i) => es[i := Entry(k, es[i].count + 1)]
    case None => es + [Entry(k, 1)]
  }

  /** The entries of the counts object after one pass over `ks`. */
  function Tally(ks: seq<string>): seq<Entry> {
    if |ks| == 0 then [] else Bump(Tally(ks[..|ks| - 1]), ks[|ks| - 1])
  }

  /**
   * What a count table must be for `ks`: one entry per distinct key, each
   * with the number of times its key occurs (at least one), counts adding
   * up to `|ks|`, and entries in the order their keys first occur.
   */
  ghost predicate TallyOf(es: seq<Entry>, ks: seq<string>) {
    && DistinctKeys(es)
    && (forall k :: k in KeysOf(es) <==> k in ks)
    && (forall i :: 0 <= i < |es| ==> es[i].count == Occurrences(ks, es[i].key) && es[i].count >= 1)
    && Total(es) == |ks|
    && (forall i, j :: 0 <= i < j < |es| && es[i].key in ks && es[j].key in ks ==>
          FirstIndex(ks, es[i].key) < FirstIndex(ks, es[j].key))
  }

  lemma OccurrencesAbsent(ks: seq<string>, k: string)
    requires k !in ks
    ensures Occurrences(ks, k) == 0
  {
    if |ks| > 0 {
      assert k !in ks[..|ks| - 1];
      OccurrencesAbsent(ks[..|ks| - 1], k);
    }
  }

  lemma TotalIncrement(es: seq<Entry>, i: nat, e: Entry)
    requires i < |es| && e.count == es[i].count + 1
    ensures Total(es[i := e]) == Total(es) + 1
  {
    var es' := es[i := e];
    if i < |es| - 1 {
      assert es'[..|es'| - 1] == es[..|es| - 1][i := e];
      TotalIncrement(es[..|es| - 1], i, e);
    } else {
      assert es'[..|es'| - 1] == es[..|es| - 1];
    }
  }

  lemma FirstIndexExtend(ks: seq<string>, k: string, x: string)
    requires x in ks
    ensures x in ks + [k] && FirstIndex(ks + [k], x) == FirstIndex(ks, x)
  {
    if ks[0] != x {
      assert (ks + [k])[1..] == ks[1..] + [k];
      FirstIndexExtend(ks[1..], k, x);
    }
  }

  lemma FirstIndexNew(ks: seq<string>, k: string)
    requires k !in ks
    ensures FirstIndex(ks + [k], k) == |ks|
  {
  }

  lemma OccurrencesExtend(ks: seq<string>, k: string, x: string)
    ensures Occurrences(ks + [k], x) == Occurrences(ks, x) + (if x == k then 1 else 0)
  {
    assert (ks + [k])[..|ks|] == ks;
  }

  /** Bumping an existing key adds one to its entry and leaves everything else alone. */
  lemma BumpExisting(es: seq<Entry>, k: string, i: nat)
    requires Find(es, k) == Some(i)
    ensures |Bump(es, k)| == |es| && KeysOf(Bump(es, k)) == KeysOf(es)
    ensures Bump(es, k)[i].count == es[i].count + 1
    ensures forall j :: 0 <= j < |es| && j != i ==> Bump(es, k)[j] == es[j]
    ensures Total(Bump(es, k)) == Total(es) + 1
  {
    TotalIncrement(es, i, Entry(k, es[i].count + 1));
  }

  /** Bumping a new key appends `[k, 1]`. */
  lemma BumpNew(es: seq<Entry>, k: string)
    requires k !in KeysOf(es)
    ensures Bump(es, k) == es + [Entry(k, 1)]
    ensures KeysOf(Bump(es, k)) == KeysOf(es) + [k]
    ensures Total(Bump(es, k)) == Total(es) + 1
  {
    var es' := es + [Entry(k, 1)];
    assert es'[..|es'| - 1] == es;
  }

  lemma StepKeys(es: seq<Entry>, ks: seq<string>, k: string)
    requires TallyOf(es, ks)
    ensures DistinctKeys(Bump(es, k))
    ensures forall x :: x in KeysOf(Bump(es, k)) <==> x in ks + [k]
    ensures Total(Bump(es, k)) == |ks + [k]|
  {
    match Find(es, k)
    case Some(i) => BumpExisting(es, k, i);
    case None => BumpNew(es, k);
  }

  lemma StepCounts(es: seq<Entry>, ks: seq<string>, k: string)
    requires TallyOf(es, ks)
    ensures forall i :: 0 <= i < |Bump(es, k)| ==>
      Bump(es, k)[i].count == Occurrences(ks + [k], Bump(es, k)[i].key) && Bump(es, k)[i].count >= 1
  {
    var es' := Bump(es, k);
    forall i | 0 <= i < |es'|
      ensures es'[i].count == Occurrences(ks + [k], es'[i].key) && es'[i].count >= 1
    {
      OccurrencesExtend(ks, k, es'[i].key);
      match Find(es, k)
      case Some(m) =>
        BumpExisting(es, k, m);
        assert es'[i].key == es[i].key;
      case None =>
        BumpNew(es, k);
        if i == |es| {
          OccurrencesAbsent(ks, k);
        } else {
          assert es'[i] == es[i];
          assert es[i].key in KeysOf(es);
        }
    }
  }

  lemma StepOrder(es: seq<Entry>, ks: seq<string>, k: string)
    requires TallyOf(es, ks)
    ensures forall i, j :: 0 <= i < j < |Bump(es, k)| && Bump(es, k)[i].key in ks + [k] && Bump(es, k)[j].key in ks + [k] ==>
      FirstIndex(ks + [k], Bump(es, k)[i].key) < FirstIndex(ks + [k], Bump(es, k)[j].key)
  {
    var es' := Bump(es, k);
    forall i, j | 0 <= i < j < |es'| && es'[i].key in ks + [k] && es'[j].key in ks + [k]
      ensures FirstIndex(ks + [k], es'[i].key) < FirstIndex(ks + [k], es'[j].key)
    {
      assert es[i].key in KeysOf(es);
      FirstIndexExtend(ks, k, es[i].key);
      match Find(es, k)
      case Some(m) =>
        BumpExisting(es, k, m);
        assert es[j].key in KeysOf(es);
        FirstIndexExtend(ks, k, es[j].key);
      case None =>
        BumpNew(es, k);
        if j == |es| {
          FirstIndexNew(ks, k);
        } else {
          assert es[j].key in KeysOf(es);
          FirstIndexExtend(ks, k, es[j].key);
        }
    }
  }

  /** The pass builds exactly the count table of its keys. */
  lemma {:induction false} TallyCorrect(ks: seq<string>)
    ensures TallyOf(Tally(ks), ks)
  {
    if |ks| > 0 {
      var pre := ks[..|ks| - 1];
      var k := ks[|ks| - 1];
      assert ks == pre + [k];
      TallyCorrect(pre);
      StepKeys(Tally(pre), pre, k);
      StepCounts(Tally(pre), pre, k);
      StepOrder(Tally(pre), pre, k);
    }
  }

  /**
   * Entry `i` holds a largest count and every entry before it a strictly
   * smaller one: the entry a first-wins scan for the maximum selects.
   */
  predicate IsFirstMax(es: seq<Entry>, i: int) {
    && 0 <= i < |es|
    && (forall j :: 0 <= j < |es| ==> es[j].count <= es[i].count)
    && (forall j :: 0 <= j < i ==> es[j].count < es[i].count)
  }

  lemma FirstMaxUnique(es: seq<Entry>, i: int, j: int)
    requires IsFirstMax(es, i) && IsFirstMax(es, j)
    ensures i == j
  {
    assert es[j].count <= es[i].count;
    assert es[i].count <= es[j].count;
  }

  /**
   * The first entry with the largest count, found by the scan `if (count >
   * maxVotes)` over the entries from the left.
   */
  function FirstMax(es: seq<Entry>): (i: nat)
    requires |es| > 0
    ensures IsFirstMax(es, i)
  {
    if |es| == 1 then 0
    else
      var j := FirstMax(es[..|es| - 1]);
      if es[|es| - 1].count > es[j].count then |es| - 1 else j
  }

  predicate SortedDesc(es: seq<Entry>) {
    forall i :: 0 < i < |es| ==> es[i - 1].count >= es[i].count
  }

  /** Puts `e` in front of the first entry whose count does not exceed its own. */
  function InsertDesc(e: Entry, es: seq<Entry>): (r: seq<Entry>)
    requires SortedDesc(es)
    ensures SortedDesc(r)
    ensures multiset(r) == multiset(es) + multiset{e}
    ensures r[0] == e || (|es| > 0 && r[0] == es[0])
    ensures r[0] == (if |es| == 0 || e.count >= es[0].count then e else es[0])
  {
    if |es| == 0 || e.count >= es[0].count then [e] + es
    else
      var rest := InsertDesc(e, es[1..]);
      assert es == [es[0]] + es[1..];
      [es[0]] + rest
  }

  /**
   * `entries.sort((a, b) => b[1] - a[1])`: descending by count; `sort` is
   * stable, so entries with equal counts keep their order.
   */
  function SortDesc(es: seq<Entry>): (r: seq<Entry>)
    ensures SortedDesc(r)
    ensures multiset(r) == multiset(es)
    ensures |r| == |es|
  {
    if |es| == 0 then []
    else
      var r := InsertDesc(es[0], SortDesc(es[1..]));
      assert es == [es[0]] + es[1..];
      assert |r| == |multiset(r)|;
      r
  }

  /** The head of the stable descending sort is the first entry with the largest count. */
  lemma {:induction false} SortHeadIsFirstMax(es: seq<Entry>)
    requires |es| > 0
    ensures SortDesc(es)[0] == es[FirstMax(es)]
  {
    if |es| > 1 {
      var tail := es[1..];
      SortHeadIsFirstMax(tail);
      var t := SortDesc(tail);
      var m := FirstMax(tail);
      if es[0].count >= t[0].count {
        assert IsFirstMax(es, 0) by {
          forall j | 0 < j < |es| ensures es[j].count <= es[0].count {
            assert es[j] == tail[j - 1];
          }
        }
        FirstMaxUnique(es, 0, FirstMax(es));
      } else {
        assert IsFirstMax(es, m + 1) by {
          forall j | 0 < j < |es| ensures es[j].count <= es[m + 1].count {
            assert es[j] == tail[j - 1];
          }
          forall j | 0 < j < m + 1 ensures es[j].count < es[m + 1].count {
            assert es[j] == tail[j - 1];
          }
        }
        FirstMaxUnique(es, m + 1, FirstMax(es));
      }
    }
  }

  /**
   * `Math.round(part / whole * 100)` on exact rationals, halves rounded up;
   * lemma `RoundedPercentIsNearest` says it is the nearest percentage.
   */
  function RoundedPercent(part: nat, whole: nat): (p: nat)
    requires 0 < whole && part <= whole
    ensures p <= 100
    ensures part == whole ==> p == 100
  {
    var p := (200 * part + whole) / (2 * whole);
    RoundedPercentBounds(part, whole);
    p
  }

  /** The rounded percentage is within one half of `100 * part / whole`, halves going up. */
  lemma RoundedPercentIsNearest(part: nat, whole: nat)
    requires 0 < whole && part <= whole
    ensures var p := RoundedPercent(part, whole);
      2 * p * whole <= 200 * part + whole < 2 * (p + 1) * whole
  {
    RoundedPercentBounds(part, whole);
  }

  /** Round-half-up: `p - 1/2 <= 100 * part / whole < p + 1/2`, and so 0..100. */
  lemma RoundedPercentBounds(part: nat, whole: nat)
    requires 0 < whole && part <= whole
    ensures var p := (200 * part + whole) / (2 * whole);
      && 2 * p * whole <= 200 * part + whole < 2 * (p + 1) * whole
      && p <= 100
      && (part == whole ==> p == 100)
  {
    var p := (200 * part + whole) / (2 * whole);
    FloorDivBounds(200 * part + whole, 2 * whole, p);
    PercentCap(part, whole, p);
  }

  /** The rounding bounds pin the percentage to 0..100, and to 100 for the whole. */
  lemma PercentCap(part: nat, whole: nat, p: nat)
    requires 0 < whole && part <= whole
    requires 2 * p * whole <= 200 * part + whole < 2 * (p + 1) * whole
    ensures p <= 100
    ensures part == whole ==> p == 100
  {
    assert 2 * p * whole < 202 * whole;
    LessByFactor(2 * p, 202, whole);
    if part == whole {
      assert 200 * whole < 2 * (p + 1) * whole;
      LessByFactor(200, 2 * (p + 1), whole);
    }
  }

  lemma LessByFactor(a: int, b: int, c: int)
    requires c > 0 && a * c < b * c
    ensures a < b
  {
    assert (a - b) * c == a * c - b * c;
  }

  lemma FloorDivBounds(n: nat, d: nat, q: nat)
    requires d > 0 && q == n / d
    ensures q * d <= n < (q + 1) * d
  {
    assert n == q * d + n % d;
    assert (q + 1) * d == q * d + d;
  }

  /** One vote out of more than 200 rounds to 0 percent. */
  lemma RoundedPercentOfOne(whole: nat)
    requires whole > 200
    ensures RoundedPercent(1, whole) == 0
  {
    var p := RoundedPercent(1, whole);
    RoundedPercentBounds(1, whole);
    assert 2 * p * whole < 2 * whole;
    LessByFactor(2 * p, 2, whole);
  }
}

=== FILE: search_bar.dfy ===
/**
 * The logic of `src/components/SearchBar.tsx`: the URL slug of a show name,
 * the rule that only a trimmed query of two or more characters is searched,
 * and the focus and clear handlers.
 */
module SearchBar {
  import opened Wrappers
  import opened Text

  // ---------------------------------------------------------------------
  // Slug: `name.toLowerCase().replace(/[^a-z0-9]+/g, '-')`
  // ---------------------------------------------------------------------

  /** The characters the pattern `[^a-z0-9]` does not match. */
  predicate IsSlugChar(c: char) {
    ('a' <= c <= 'z') || IsDigit(c)
  }

  /** An ASCII letter of either case or a decimal digit. */
  predicate IsAsciiAlnum(c: char) {
    ('a' <= c <= 'z') || IsUpper(c) || IsDigit(c)
  }

  /** Drops the maximal leading run of characters that are not slug characters. */
  function DropRun(s: string): (r: string)
    ensures |r| <= |s| && (|s| > 0 && !IsSlugChar(s[0]) ==> |r| < |s|)
    ensures |r| > 0 ==> IsSlugChar(r[0])
  {
    if |s| > 0 && !IsSlugChar(s[0]) then DropRun(s[1..]) else s
  }

  /**
   * The global replace: every maximal run of non-slug characters becomes a
   * single '-'; slug characters are copied.
   */
  function Collapse(s: string): (r: string)
    ensures |s| > 0 ==> |r| > 0 && (IsSlugChar(s[0]) ==> r[0] == s[0])
    ensures |r| > 0 ==> |s| > 0
    decreases |s|
  {
    if |s| == 0 then ""
    else if IsSlugChar(s[0]) then [s[0]] + Collapse(s[1..])
    else "-" + Collapse(DropRun(s))
  }

  /** The slug used in the link `/show/{id}-{slug}`. */
  function Slug(name: string): string {
    Collapse(Lower(name))
  }

  /** A string already in slug form. */
  predicate IsSlug(s: string) {
    && (forall i :: 0 <= i < |s| ==> IsSlugChar(s[i]) || s[i] == '-')
    && (forall i, j :: 0 <= i && j == i + 1 < |s| ==> s[i] != '-' || s[j] != '-')
  }

  /** The replace yields only [a-z0-9-] and never "--". */
  lemma {:induction false} CollapseShape(s: string)
    ensures IsSlug(Collapse(s))
    decreases |s|
  {
    if |s| == 0 {
    } else if IsSlugChar(s[0]) {
      CollapseShape(s[1..]);
      ConsSlug(s[0], Collapse(s[1..]));
    } else {
      var d := DropRun(s);
      CollapseShape(d);
      ConsSlug('-', Collapse(d));
    }
  }

  /** Prepending a slug character, or a '-' before a non-'-', keeps slug form. */
  lemma ConsSlug(x: char, t: string)
    requires IsSlug(t)
    requires IsSlugChar(x) || (x == '-' && (|t| > 0 ==> t[0] != '-'))
    ensures IsSlug([x] + t)
  {
    var u := [x] + t;
    forall i, j | 0 <= i && j == i + 1 < |u|
      ensures u[i] != '-' || u[j] != '-'
    {
      if i > 0 {
        assert u[i] == t[i - 1] && u[j] == t[j - 1];
      }
    }
  }

  /** A slug contains only [a-z0-9-] and never "--". */
  lemma SlugShape(name: string)
    ensures IsSlug(Slug(name))
    ensures forall i :: 0 <= i < |Slug(name)| ==> ('a' <= Slug(name)[i] <= 'z') || IsDigit(Slug(name)[i]) || Slug(name)[i] == '-'
  {
    CollapseShape(Lower(name));
  }

  /**
   * A maximal run of non-slug characters between a run of slug characters
   * and the rest becomes exactly one '-'.
   */
  lemma CollapseRun(a: string, b: string, c: string)
    requires forall i :: 0 <= i < |a| ==> IsSlugChar(a[i])
    requires |b| > 0 && forall i :: 0 <= i < |b| ==> !IsSlugChar(b[i])
    requires |c| > 0 ==> IsSlugChar(c[0])
    ensures Collapse(a + (b + c)) == a + ("-" + Collapse(c))
  {
    CollapseSlugPrefix(a, b + c);
    CollapseLeadingRun(b, c);
  }

  /** A prefix of slug characters is copied in front of the rest's collapse. */
  lemma {:induction false} CollapseSlugPrefix(a: string, t: string)
    requires forall i :: 0 <= i < |a| ==> IsSlugChar(a[i])
    ensures Collapse(a + t) == a + Collapse(t)
    decreases |a|
  {
    if |a| == 0 {
      assert a + t == t;
      assert a + Collapse(t) == Collapse(t);
    } else {
      calc {
        Collapse(a + t);
        { assert (a + t)[0] == a[0]; assert (a + t)[1..] == a[1..] + t; }
        [a[0]] + Collapse(a[1..] + t);
        { CollapseSlugPrefix(a[1..], t); }
        [a[0]] + (a[1..] + Collapse(t));
        { assert [a[0]] + a[1..] == a; }
        a + Collapse(t);
      }
    }
  }

  /** A leading run of non-slug characters becomes one '-'. */
  lemma CollapseLeadingRun(b: string, c: string)
    requires |b| > 0 && forall i :: 0 <= i < |b| ==> !IsSlugChar(b[i])
    requires |c| > 0 ==> IsSlugChar(c[0])
    ensures Collapse(b + c) == "-" + Collapse(c)
  {
    assert (b + c)[0] == b[0];
    DropRunPrefix(b, c);
  }

  lemma {:induction false} DropRunPrefix(b: string, c: string)
    requires forall i :: 0 <= i < |b| ==> !IsSlugChar(b[i])
    requires |c| > 0 ==> IsSlugChar(c[0])
    ensures DropRun(b + c) == c
    decreases |b|
  {
    if |b| > 0 {
      assert (b + c)[1..] == b[1..] + c;
      DropRunPrefix(b[1..], c);
    } else {
      assert b + c == c;
    }
  }

  /** The slug characters of a string, in order. */
  function KeepSlugChars(s: string): (r: string)
    ensures |r| <= |s|
    ensures forall i :: 0 <= i < |r| ==> IsSlugChar(r[i])
  {
    if |s| == 0 then ""
    else if IsSlugChar(s[0]) then [s[0]] + KeepSlugChars(s[1..])
    else KeepSlugChars(s[1..])
  }

  /** The ASCII letters and digits of a string, in order. */
  function KeepAlnum(s: string): (r: string)
    ensures |r| <= |s|
    ensures forall i :: 0 <= i < |r| ==> IsAsciiAlnum(r[i])
  {
    if |s| == 0 then ""
    else if IsAsciiAlnum(s[0]) then [s[0]] + KeepAlnum(s[1..])
    else KeepAlnum(s[1..])
  }

  lemma {:induction false} DropRunKeeps(s: string)
    ensures KeepSlugChars(DropRun(s)) == KeepSlugChars(s)
    decreases |s|
  {
    if |s| > 0 && !IsSlugChar(s[0]) {
      DropRunKeeps(s[1..]);
    }
  }

  /** Collapsing drops no slug character and adds none. */
  lemma {:induction false} CollapseKeeps(s: string)
    ensures KeepSlugChars(Collapse(s)) == KeepSlugChars(s)
    decreases |s|
  {
    if |s| == 0 {
    } else if IsSlugChar(s[0]) {
      CollapseKeeps(s[1..]);
      assert ([s[0]] + Collapse(s[1..]))[1..] == Collapse(s[1..]);
    } else {
      var d := DropRun(s);
      CollapseKeeps(d);
      DropRunKeeps(s);
      assert ("-" + Collapse(d))[1..] == Collapse(d);
    }
  }

  /** Lower-casing maps the ASCII letters and digits exactly onto the slug characters. */
  lemma {:induction false} LowerKeeps(s: string)
    ensures KeepSlugChars(Lower(s)) == Lower(KeepAlnum(s))
    decreases |s|
  {
    if |s| > 0 {
      assert Lower(s)[1..] == Lower(s[1..]);
      LowerKeeps(s[1..]);
      if IsAsciiAlnum(s[0]) {
        assert Lower([s[0]] + KeepAlnum(s[1..])) == [LowerChar(s[0])] + Lower(KeepAlnum(s[1..]));
      }
    }
  }

  /** The ASCII letters and digits of the name survive in order, lower-cased. */
  lemma SlugKeepsLettersAndDigits(name: string)
    ensures KeepSlugChars(Slug(name)) == Lower(KeepAlnum(name))
  {
    CollapseKeeps(Lower(name));
    LowerKeeps(name);
  }

  /** A string already in slug form is left alone by the replace. */
  lemma {:induction false} CollapseFixpoint(s: string)
    requires IsSlug(s)
    ensures Collapse(s) == s
    decreases |s|
  {
    if |s| > 0 {
      assert IsSlug(s[1..]);
      CollapseFixpoint(s[1..]);
      if !IsSlugChar(s[0]) {
        assert DropRun(s) == s[1..] by {
          assert DropRun(s) == DropRun(s[1..]);
          assert |s| > 1 ==> IsSlugChar(s[1]);
        }
      }
    }
  }

  /** Slugging a slug changes nothing. */
  lemma SlugIdempotent(name: string)
    ensures Slug(Slug(name)) == Slug(name)
  {
    var s := Slug(name);
    SlugShape(name);
    assert Lower(s) == s;
    CollapseFixpoint(s);
  }

  /** A search result as returned by `/api/search`. */
  datatype SearchResult = SearchResult(id: int, name: string, posterPath: Option<string>, firstAirDate: string)

  /** The link of one result: `/show/{id}-{slug}`. */
  function ShowLink(hit: SearchResult): string {
    "/show/" + IntStr(hit.id) + "-" + Slug(hit.name)
  }

  // ---------------------------------------------------------------------
  // Query gate, focus and clear
  // ---------------------------------------------------------------------

  datatype SearchState = SearchState(query: string, results: seq<SearchResult>, isOpen: bool, isLoading: bool)

  const Initial := SearchState("", [], false, false)

  /** The result of the `/api/search` call: its parsed body, or a thrown error. */
  datatype Lookup = Found(hits: seq<SearchResult>) | Failed

  /** `query.trim().length >= 2`, where `length` counts UTF-16 code units. */
  predicate Searchable(query: string) {
    Utf16Length(Trim(query)) >= 2
  }

  /** The timer callback up to its `await`: whether it started a lookup, and the state it leaves. */
  datatype Fired = Fired(state: SearchState, started: bool)

  /**
   * The debounced callback's synchronous part. A short query clears the
   * results and closes the dropdown without a request; otherwise loading
   * turns on and the lookup for the query is sent.
   */
  function Fire(st: SearchState): (r: Fired)
    ensures r.started <==> Searchable(st.query)
    ensures !r.started ==> r.state == st.(results := [], isOpen := false)
    ensures r.started ==> r.state == st.(isLoading := true)
  {
    if !Searchable(st.query) then Fired(st.(results := [], isOpen := false), false)
    else Fired(st.(isLoading := true), true)
  }

  /**
   * The part after the `await`, applied to the state as it is when the
   * response arrives: nothing checks that the query is still the one that
   * was sent. A found lookup replaces the results and opens the dropdown; a
   * failed one changes neither; loading turns off either way.
   */
  function Respond(st: SearchState, lookup: Lookup): (r: SearchState)
    ensures !r.isLoading && r.query == st.query
    ensures lookup.Found? ==> r.results == lookup.hits && r.isOpen
    ensures lookup.Failed? ==> r == st.(isLoading := false)
  {
    match lookup
    case Found(hits) => st.(results := hits, isOpen := true, isLoading := false)
    case Failed => st.(isLoading := false)
  }

  /** The debounced effect run with no other event between the request and its response. */
  datatype Settled = Settled(state: SearchState, searched: bool)

  /**
   * The debounced effect for the current query, run to completion with the
   * lookup's outcome. A short query clears and closes without searching; a
   * found lookup replaces the results and opens; a failed one changes
   * neither; loading is off afterwards.
   */
  function Settle(st: SearchState, lookup: Lookup): (r: Settled)
    ensures r.searched <==> Searchable(st.query)
    ensures r.state.query == st.query
    ensures !r.searched ==> r.state.results == [] && !r.state.isOpen && r.state.isLoading == st.isLoading
    ensures r.searched ==> !r.state.isLoading
    ensures r.searched && lookup.Found? ==> r.state.results == lookup.hits && r.state.isOpen
    ensures r.searched && lookup.Failed? ==> r.state.results == st.results && r.state.isOpen == st.isOpen
  {
    var fired := Fire(st);
    if !fired.started then Settled(fired.state, false)
    else Settled(Respond(fired.state, lookup), true)
  }

  /** Typing: only the query changes. */
  function OnChange(st: SearchState, text: string): (r: SearchState)
    ensures r.query == text && r.results == st.results && r.isOpen == st.isOpen && r.isLoading == st.isLoading
  {
    st.(query := text)
  }

  /** Focus opens the dropdown when the trimmed query is long enough; otherwise nothing changes. */
  function OnFocus(st: SearchState): (r: SearchState)
    ensures Searchable(st.query) ==> r == st.(isOpen := true)
    ensures !Searchable(st.query) ==> r == st
  {
    if Searchable(st.query) then st.(isOpen := true) else st
  }

  /** The clear button: empty query, no results, closed dropdown. */
  function OnClear(st: SearchState): (r: SearchState)
    ensures r.query == "" && r.results == [] && !r.isOpen && r.isLoading == st.isLoading
  {
    st.(query := "", results := [], isOpen := false)
  }

  /** The clear button is rendered iff the query is a non-empty string. */
  predicate ClearVisible(st: SearchState) {
    st.query != ""
  }

  /** What the dropdown shows. */
  datatype Panel = Closed | Links(links: seq<string>) | NoShowsFound | Blank

  function Dropdown(st: SearchState): (p: Panel)
    ensures p.Closed? <==> !st.isOpen
    ensures p.Links? ==>
      && |p.links| == |st.results| > 0
      && forall i :: 0 <= i < |st.results| ==> p.links[i] == ShowLink(st.results[i])
    ensures p.NoShowsFound? <==> st.isOpen && |st.results| == 0 && !st.isLoading
  {
    if !st.isOpen then Closed
    else if |st.results| > 0 then Links(seq(|st.results|, i requires 0 <= i < |st.results| => ShowLink(st.results[i])))
    else if !st.isLoading then NoShowsFound
    else Blank
  }

  /** A state where an open dropdown belongs to a searchable query. */
  predicate Gated(st: SearchState) {
    st.isOpen ==> Searchable(st.query)
  }

  /** Settling always leaves a gated state, whatever the state before and the lookup. */
  lemma SettleGates(st: SearchState, lookup: Lookup)
    ensures Gated(Settle(st, lookup).state)
  {
  }

  /** Focus and clear keep a state gated; the initial state is gated. */
  lemma HandlersKeepGate(st: SearchState)
    requires Gated(st)
    ensures Gated(OnFocus(st)) && Gated(OnClear(st)) && Gated(Initial)
  {
  }

  /**
   * Typing changes only the query, so an open dropdown stays open for a
   * query too short to search until the debounce timer fires and closes it.
   */
  lemma TypingLeavesShortQueryOpen(st: SearchState, text: string)
    requires st.isOpen && !Searchable(text)
    ensures var r := OnChange(st, text);
      && r.query == text && r.isOpen && !Gated(r) && !Dropdown(r).Closed?
      && !Fire(r).started && Gated(Fire(r).state) && Dropdown(Fire(r).state).Closed?
  {
  }

  /**
   * The cleanup `clearTimeout` cancels the timer but not a lookup already
   * sent: when the clear button is pressed while a found lookup is in
   * flight, its response opens the dropdown for the empty query.
   */
  lemma LateResponseAfterClear(st: SearchState, hits: seq<SearchResult>)
    requires Searchable(st.query)
    ensures var r := Respond(OnClear(Fire(st).state), Found(hits));
      && r.query == "" && r.isOpen && r.results == hits
      && !Gated(r) && !Dropdown(r).Closed?
  {
    var r := Respond(OnClear(Fire(st).state), Found(hits));
    assert Trim("") == "";
  }

  /** After a clear, the next settle searches nothing and the dropdown stays closed. */
  lemma ClearThenSettle(st: SearchState, lookup: Lookup)
    ensures var r := Settle(OnClear(st), lookup);
      !r.searched && r.state.results == [] && Dropdown(r.state).Closed? && !ClearVisible(r.state)
  {
  }

  /**
   * One character padded with white space is searched exactly when it lies
   * above U+FFFF: trimming leaves at most that character, and only such a
   * character has a `length` of 2.
   */
  lemma PaddedCharSearched(pre: string, c: char, post: string)
    requires forall i :: 0 <= i < |pre| ==> IsJsSpace(pre[i])
    requires forall i :: 0 <= i < |post| ==> IsJsSpace(post[i])
    ensures Searchable(pre + [c] + post) <==> c as int >= 0x1_0000
  {
    PaddedTrim(pre, c, post);
    Utf16LengthOfOne(c);
  }

  /** Trimming a padded character leaves the character, or nothing when it is white space too. */
  lemma PaddedTrim(pre: string, c: char, post: string)
    requires forall i :: 0 <= i < |pre| ==> IsJsSpace(pre[i])
    requires forall i :: 0 <= i < |post| ==> IsJsSpace(post[i])
    ensures Trim(pre + [c] + post) == if IsJsSpace(c) then "" else [c]
  {
    var s := pre + [c] + post;
    PaddedTrimShort(pre, c, post);
    if !IsJsSpace(c) {
      assert s[|pre|] == c;
      assert c in s;
    }
  }

  /** Only the middle character can survive trimming. */
  lemma PaddedTrimShort(pre: string, c: char, post: string)
    requires forall i :: 0 <= i < |pre| ==> IsJsSpace(pre[i])
    requires forall i :: 0 <= i < |post| ==> IsJsSpace(post[i])
    ensures |Trim(pre + [c] + post)| <= 1
    ensures |Trim(pre + [c] + post)| == 1 ==> Trim(pre + [c] + post)[0] == c
  {
    var s := pre + [c] + post;
    var r := Trim(s);
    var k := TrimSlice(s);
    PaddedSpaces(pre, c, post);
    assert s[|pre|] == c;
    assert |r| > 0 ==> r[0] == s[k] && r[|r| - 1] == s[k + |r| - 1];
  }

  lemma PaddedSpaces(pre: string, c: char, post: string)
    requires forall i :: 0 <= i < |pre| ==> IsJsSpace(pre[i])
    requires forall i :: 0 <= i < |post| ==> IsJsSpace(post[i])
    ensures forall j :: 0 <= j < |pre + [c] + post| && j != |pre| ==> IsJsSpace((pre + [c] + post)[j])
  {
  }

  /** A query of white space only is not searched. */
  lemma BlankIsNotSearched(q: string)
    requires forall i :: 0 <= i < |q| ==> IsJsSpace(q[i])
    ensures !Searchable(q)
  {
    var t := TrimStart(q);
    assert Trim(q) == TrimEnd(t);
  }
}

=== FILE: shows.dfy ===
/**
 * `src/lib/shows.ts`: resolving a catalogue id to a stored show (creating
 * it, or refreshing it when its metadata is more than a day old) and the
 * stand-alone verdict routine `calculateVerdict`.
 */
module Shows {
  import opened Wrappers
  import opened EpisodeKey
  import opened Grouping
  import opened Tmdb
  import opened Votes

  /** A row of the `shows` table. A null `last_updated` is `None`. */
  datatype Show = Show(
    id: nat,
    tmdbId: int,
    title: string,
    posterPath: Option<string>,
    totalSeasons: int,
    lastUpdated: Option<int>)

  /** The `shows` table: its rows and the next id to hand out. */
  datatype ShowTable = ShowTable(rows: seq<Show>, nextId: nat)

  /** 24 hours in milliseconds. */
  const DayMillis: int := 24 * 60 * 60 * 1000

  /** `findUnique({ where: { tmdb_id } })`. */
  function FindShow(rows: seq<Show>, tmdbId: int): (r: Option<nat>)
    ensures r.None? <==> forall i :: 0 <= i < |rows| ==> rows[i].tmdbId != tmdbId
    ensures r.Some? ==> r.value < |rows| && rows[r.value].tmdbId == tmdbId
    ensures r.Some? ==> forall i :: 0 <= i < r.value ==> rows[i].tmdbId != tmdbId
  {
    if |rows| == 0 then None
    else if rows[0].tmdbId == tmdbId then Some(0)
    else match FindShow(rows[1..], tmdbId)
      case None => None
      case Some(i) => Some(i + 1)
  }

  /** The `tmdb_id` column is unique. */
  predicate UniqueTmdbIds(rows: seq<Show>) {
    forall i, j :: 0 <= i < j < |rows| ==> rows[i].tmdbId != rows[j].tmdbId
  }

  /**
   * `lastUpdated < twentyFourHoursAgo`, with a null timestamp read as the
   * epoch.
   */
  predicate IsStale(show: Show, now: int) {
    show.lastUpdated.GetOr(0) < now - DayMillis
  }

  /** The table after resolution, the show returned (`null` is `None`), and whether metadata was fetched. */
  datatype Resolution = Resolution(table: ShowTable, show: Option<Show>, fetched: bool)

  /**
   * `getOrCreateShow`. `details` is what `getShowDetails` would return if
   * it were called, and `now` is `Date.now()`.
   */
  function GetOrCreateShow(t: ShowTable, tmdbId: int, now: int, details: Option<ShowDetails>): (r: Resolution)
    ensures FindShow(t.rows, tmdbId).None? ==>
      && r.fetched
      && (details.None? ==> r.show.None? && r.table == t)
      && (details.Some? ==>
            && r.show.Some? && r.table.rows == t.rows + [r.show.value] && r.table.nextId == t.nextId + 1
            && r.show.value.id == t.nextId && r.show.value.tmdbId == tmdbId
            && r.show.value.title == details.value.name
            && r.show.value.posterPath == details.value.posterPath
            && r.show.value.totalSeasons == details.value.numberOfSeasons
            && r.show.value.lastUpdated == Some(now))
    ensures FindShow(t.rows, tmdbId).Some? ==>
      var i := FindShow(t.rows, tmdbId).value;
      var known := t.rows[i];
      && (r.fetched <==> IsStale(known, now))
      && r.show.Some?
      && (!IsStale(known, now) || details.None? ==> r.table == t && r.show.value == known)
      && (IsStale(known, now) && details.Some? ==>
            && r.table.nextId == t.nextId
            && |r.table.rows| == |t.rows| && r.table.rows[i] == r.show.value
            && (forall j :: 0 <= j < |t.rows| && j != i ==> r.table.rows[j] == t.rows[j])
            && r.show.value.id == known.id && r.show.value.tmdbId == known.tmdbId
            && r.show.value.title == details.value.name
            && r.show.value.posterPath == details.value.posterPath
            && r.show.value.totalSeasons == details.value.numberOfSeasons
            && r.show.value.lastUpdated == Some(now))
  {
    match FindShow(t.rows, tmdbId)
    case None =>
      if details.None? then Resolution(t, None, true)
      else
        var d := details.value;
        var s := Show(t.nextId, tmdbId, d.name, d.posterPath, d.numberOfSeasons, Some(now));
        Resolution(ShowTable(t.rows + [s], t.nextId + 1), Some(s), true)
    case Some(i) =>
      var known := t.rows[i];
      if !IsStale(known, now) then Resolution(t, Some(known), false)
      else if details.None? then Resolution(t, Some(known), true)
      else
        var d := details.value;
        var s := known.(title := d.name, posterPath := d.posterPath,
                      totalSeasons := d.numberOfSeasons, lastUpdated := Some(now));
        Resolution(t.(rows := t.rows[i := s]), Some(s), true)
  }

  /** Resolution never gives two rows the same catalogue id. */
  lemma ResolveKeepsTmdbIdsUnique(t: ShowTable, tmdbId: int, now: int, details: Option<ShowDetails>)
    requires UniqueTmdbIds(t.rows)
    ensures UniqueTmdbIds(GetOrCreateShow(t, tmdbId, now, details).table.rows)
  {
  }

  /** A returned show is the stored row for its catalogue id. */
  lemma ResolvedShowIsStored(t: ShowTable, tmdbId: int, now: int, details: Option<ShowDetails>)
    ensures var r := GetOrCreateShow(t, tmdbId, now, details);
      r.show.Some? ==>
        && r.show.value.tmdbId == tmdbId
        && FindShow(r.table.rows, tmdbId).Some?
        && r.table.rows[FindShow(r.table.rows, tmdbId).value] == r.show.value
  {
    var r := GetOrCreateShow(t, tmdbId, now, details);
    match FindShow(t.rows, tmdbId)
    case None =>
      if r.show.Some? {
        assert r.table.rows[|t.rows|] == r.show.value;
      }
    case Some(i) =>
      assert r.table.rows[i] == r.show.value;
  }

  /**
   * Resolving a show a second time at the same moment fetches nothing and
   * changes nothing: the first resolution left it fresh.
   */
  lemma ResolveAgainIsStable(t: ShowTable, tmdbId: int, now: int, details: Option<ShowDetails>, details': Option<ShowDetails>)
    requires GetOrCreateShow(t, tmdbId, now, details).show.Some?
    requires FindShow(t.rows, tmdbId).Some? && IsStale(t.rows[FindShow(t.rows, tmdbId).value], now) ==> details.Some?
    ensures var r := GetOrCreateShow(t, tmdbId, now, details);
      var r' := GetOrCreateShow(r.table, tmdbId, now, details');
      !r'.fetched && r'.table == r.table && r'.show == r.show
  {
    ResolvedShowIsStored(t, tmdbId, now, details);
  }

  /** A stale show whose refetch failed stays stale: the next resolution fetches again. */
  lemma FailedRefreshFetchesAgain(t: ShowTable, tmdbId: int, now: int, details': Option<ShowDetails>)
    requires FindShow(t.rows, tmdbId).Some? && IsStale(t.rows[FindShow(t.rows, tmdbId).value], now)
    ensures var r := GetOrCreateShow(t, tmdbId, now, None);
      r.fetched && r.table == t && GetOrCreateShow(r.table, tmdbId, now, details').fetched
  {
  }

  /** A show with no timestamp is stale at any time later than one day after the epoch. */
  lemma NullTimestampIsStale(show: Show, now: int)
    requires show.lastUpdated.None? && now > DayMillis
    ensures IsStale(show, now)
  {
  }

  /** Exactly 24 hours known is still fresh: the comparison is strict. */
  lemma DayOldIsFresh(show: Show, now: int)
    requires show.lastUpdated == Some(now - DayMillis)
    ensures !IsStale(show, now)
    ensures !GetOrCreateShow(ShowTable([show], show.id + 1), show.tmdbId, now, None).fetched
  {
  }

  /** What `calculateVerdict` returns. */
  datatype Verdict = Verdict(season: int, episode: int, totalVotes: nat, percentage: nat)

  /**
   * `calculateVerdict`: groups the votes, scans the groups keeping the
   * first strictly larger count, and reports that group. It agrees with the
   * verdict `getVoteStats` reads off its sorted counts.
   */
  method CalculateVerdict(votes: seq<Vote>) returns (r: Option<Verdict>)
    ensures r.None? <==> |votes| == 0
    ensures r.Some? ==>
      var st := ComputeStats(votes).value;
      && r.value.season == st.season && r.value.episode == st.episode
      && r.value.totalVotes == st.totalVotes && r.value.percentage == st.percentage
  {
    if |votes| == 0 {
      return None;
    }
    var counts := Tally(VoteKeys(votes));
    TallyHead(VoteKeys(votes));
    StatsBreakdown(votes);
    var maxVotes, verdictKey := ScanForMax(counts);
    var pair := KeyPair(verdictKey);
    r := Some(Verdict(pair.0, pair.1, |votes|, RoundedPercent(maxVotes, |votes|)));
  }

  /**
   * The loop of `calculateVerdict`: starting from 0 and '', keep the entry
   * whose count is strictly larger than the largest so far.
   */
  method ScanForMax(counts: seq<Entry>) returns (maxVotes: nat, verdictKey: string)
    requires |counts| > 0
    requires forall j :: 0 <= j < |counts| ==> counts[j].count >= 1
    ensures maxVotes == counts[FirstMax(counts)].count
    ensures verdictKey == counts[FirstMax(counts)].key
  {
    maxVotes := 0;
    verdictKey := "";
    var i := 0;
    while i < |counts|
      invariant 0 <= i <= |counts|
      invariant i == 0 ==> maxVotes == 0
      invariant i > 0 ==> maxVotes == counts[FirstMax(counts[..i])].count
      invariant i > 0 ==> verdictKey == counts[FirstMax(counts[..i])].key
    {
      FirstMaxStep(counts, i);
      if counts[i].count > maxVotes {
        maxVotes := counts[i].count;
        verdictKey := counts[i].key;
      }
      i := i + 1;
    }
    assert counts[..|counts|] == counts;
  }

  /** One step of the scan: the first maximum of a longer prefix. */
  lemma FirstMaxStep(es: seq<Entry>, i: nat)
    requires i < |es| && es[i].count >= 1
    ensures i == 0 ==> FirstMax(es[..i + 1]) == 0
    ensures i > 0 ==>
      FirstMax(es[..i + 1]) == (if es[i].count > es[FirstMax(es[..i])].count then i else FirstMax(es[..i]))
  {
    assert es[..i + 1][..i] == es[..i];
  }
}

=== FILE: text.dfy ===
/**
 * String helpers shared by the model: decimal rendering of numbers as a
 * template literal produces it, `Number(...)` on digit strings,
 * `split` on a one-character separator, ASCII `toLowerCase` and `trim`.
 */
module Text {
  import opened Wrappers

  predicate IsDigit(c: char) {
    '0' <= c <= '9'
  }

  predicate AllDigits(s: string) {
    forall i :: 0 <= i < |s| ==> IsDigit(s[i])
  }

  function DigitChar(d: nat): (c: char)
    requires d < 10
    ensures IsDigit(c) && (c as int) - ('0' as int) == d
  {
    (('0' as int) + d) as char
  }

  function DigitValue(c: char): (d: nat)
    requires IsDigit(c)
    ensures d < 10
  {
    (c as int) - ('0' as int)
  }

  /** The decimal digits of `n`, most significant first, with no leading zeros. */
  function NatStr(n: nat): (s: string)
    ensures |s| > 0 && AllDigits(s)
  {
    if n < 10 then [DigitChar(n)] else NatStr(n / 10) + [DigitChar(n % 10)]
  }

  /** `${i}` for an integer: a leading '-' for negative numbers. */
  function IntStr(i: int): string {
    if i < 0 then "-" + NatStr(-i) else NatStr(i)
  }

  /** The value of a string of decimal digits; the empty string is 0, as with `Number("")`. */
  function DigitsValue(s: string): nat
    requires AllDigits(s)
  {
    if s == [] then 0 else DigitsValue(s[..|s| - 1]) * 10 + DigitValue(s[|s| - 1])
  }

  /**
   * `Number(s)` on the strings this model produces. A string of digits
   * (possibly empty) has its decimal value; anything else is `None`, which
   * stands for `NaN` (other JavaScript number syntaxes are not modelled).
   */
  function JsNumber(s: string): Option<int> {
    if AllDigits(s) then Some(DigitsValue(s)) else None
  }

  /** Rendering a natural number and reading it back gives the number. */
  lemma {:induction false} NatStrRoundTrip(n: nat)
    ensures JsNumber(NatStr(n)) == Some(n)
  {
    var s := NatStr(n);
    if n >= 10 {
      assert s[..|s| - 1] == NatStr(n / 10);
      NatStrRoundTrip(n / 10);
      assert DigitValue(s[|s| - 1]) == n % 10;
    } else {
      assert s[..0] == [];
      assert DigitsValue(s) == DigitValue(s[0]);
    }
    assert AllDigits(s);
  }

  /** The position of the first `c` in `s`. */
  function IndexOf(s: string, c: char): (r: Option<nat>)
    ensures r.None? <==> c !in s
    ensures r.Some? ==> r.value < |s| && s[r.value] == c && c !in s[..r.value]
  {
    if |s| == 0 then None
    else if s[0] == c then Some(0)
    else match IndexOf(s[1..], c)
      case None => None
      case Some(i) =>
        assert s[..i + 1] == [s[0]] + s[1..][..i];
        Some(i + 1)
  }

  /**
   * `s.split(sep)` for a one-character separator: the pieces between
   * separators, in order. There is always at least one piece.
   */
  function Split(s: string, sep: char): (parts: seq<string>)
    ensures |parts| >= 1
    decreases |s|
  {
    match IndexOf(s, sep)
    case None => [s]
    case Some(i) => [s[..i]] + Split(s[i + 1..], sep)
  }

  /** A piece free of the separator is split off exactly. */
  lemma SplitPiece(a: string, sep: char, b: string)
    requires sep !in a
    ensures Split(a + [sep] + b, sep) == [a] + Split(b, sep)
  {
    var s := a + [sep] + b;
    assert s[|a|] == sep;
    assert s[..|a|] == a;
    assert s[|a| + 1..] == b;
  }

  /** A leading separator splits off an empty first piece. */
  lemma SplitLeading(sep: char, b: string)
    ensures Split([sep] + b, sep) == [""] + Split(b, sep)
  {
    var s := [sep] + b;
    assert IndexOf(s, sep) == Some(0);
    assert s[1..] == b;
  }

  /** `Number("")` is 0. */
  lemma EmptyIsZero()
    ensures JsNumber("") == Some(0)
  {
  }

  /** A string free of the separator splits into itself alone. */
  lemma SplitWhole(a: string, sep: char)
    requires sep !in a
    ensures Split(a, sep) == [a]
  {
  }

  /** A string of digits contains no '-'. */
  lemma DigitsHaveNoDash(s: string)
    requires AllDigits(s)
    ensures '-' !in s
  {
  }

  predicate IsUpper(c: char) {
    'A' <= c <= 'Z'
  }

  /** ASCII lower-casing of one character; every other character is left alone. */
  function LowerChar(c: char): char {
    if IsUpper(c) then ((c as int) + 32) as char else c
  }

  /** `s.toLowerCase()` restricted to ASCII letters. */
  function Lower(s: string): (r: string)
    ensures |r| == |s|
    ensures forall i :: 0 <= i < |s| ==> r[i] == LowerChar(s[i])
  {
    seq(|s|, i requires 0 <= i < |s| => LowerChar(s[i]))
  }

  /**
   * The characters `String.prototype.trim` removes: the ECMAScript
   * WhiteSpace and LineTerminator code points.
   */
  predicate IsJsSpace(c: char) {
    var n := c as int;
    n == 0x09 || n == 0x0A || n == 0x0B || n == 0x0C || n == 0x0D || n == 0x20
    || n == 0xA0 || n == 0x1680 || (0x2000 <= n <= 0x200A) || n == 0x2028
    || n == 0x2029 || n == 0x202F || n == 0x205F || n == 0x3000 || n == 0xFEFF
  }

  /** The UTF-16 code units of one code point: two for a code point above U+FFFF. */
  function CodeUnits(c: char): (n: nat)
    ensures n == 1 || n == 2
  {
    if c as int >= 0x1_0000 then 2 else 1
  }

  /** JavaScript's `s.length`: the number of UTF-16 code units, not of code points. */
  function Utf16Length(s: string): (n: nat)
    ensures |s| <= n <= 2 * |s|
  {
    if |s| == 0 then 0 else Utf16Length(s[..|s| - 1]) + CodeUnits(s[|s| - 1])
  }

  /** The two lengths agree exactly when no code point lies above U+FFFF. */
  lemma {:induction false} Utf16LengthBmp(s: string)
    ensures Utf16Length(s) == |s| <==> forall i :: 0 <= i < |s| ==> s[i] as int < 0x1_0000
  {
    if |s| > 0 {
      var pre := s[..|s| - 1];
      Utf16LengthBmp(pre);
      if Utf16Length(s) == |s| {
        assert Utf16Length(pre) == |pre|;
        forall i | 0 <= i < |s| ensures s[i] as int < 0x1_0000 {
          if i < |pre| { assert s[i] == pre[i]; }
        }
      } else if Utf16Length(pre) == |pre| {
        assert s[|s| - 1] as int >= 0x1_0000;
      } else {
        var j :| 0 <= j < |pre| && pre[j] as int >= 0x1_0000;
        assert s[j] == pre[j];
      }
    }
  }

  /** One code point is one or two code units. */
  lemma Utf16LengthOfOne(c: char)
    ensures Utf16Length([c]) == CodeUnits(c)
  {
    assert [c][..0] == [];
  }

  function TrimStart(s: string): (r: string)
    ensures |r| <= |s| && r == s[|s| - |r|..]
    ensures forall i :: 0 <= i < |s| - |r| ==> IsJsSpace(s[i])
    ensures |r| > 0 ==> !IsJsSpace(r[0])
  {
    if |s| > 0 && IsJsSpace(s[0]) then TrimStart(s[1..]) else s
  }

  function TrimEnd(s: string): (r: string)
    ensures |r| <= |s| && r == s[..|r|]
    ensures forall i :: |r| <= i < |s| ==> IsJsSpace(s[i])
    ensures |r| > 0 ==> !IsJsSpace(r[|r| - 1])
  {
    if |s| > 0 && IsJsSpace(s[|s| - 1]) then TrimEnd(s[..|s| - 1]) else s
  }

  /**
   * `s.trim()`: the longest slice of `s` that neither starts nor ends with
   * white space; everything cut off is white space.
   */
  function Trim(s: string): (r: string)
    ensures |r| <= |s|
    ensures |r| > 0 ==> !IsJsSpace(r[0]) && !IsJsSpace(r[|r| - 1])
    ensures forall c :: c in s && !IsJsSpace(c) ==> c in r
  {
    var t := TrimStart(s);
    var r := TrimEnd(t);
    assert forall c :: c in s && !IsJsSpace(c) ==> c in t;
    r
  }

  /** The trimmed string is the slice of `s` starting at the returned offset. */
  lemma TrimSlice(s: string) returns (k: nat)
    ensures k + |Trim(s)| <= |s|
    ensures forall j :: 0 <= j < |Trim(s)| ==> Trim(s)[j] == s[k + j]
  {
    var t := TrimStart(s);
    k := |s| - |t|;
    StartSlice(s);
    EndSlice(t);
  }

  lemma StartSlice(s: string)
    ensures forall j :: 0 <= j < |TrimStart(s)| ==> TrimStart(s)[j] == s[|s| - |TrimStart(s)| + j]
  {
  }

  lemma EndSlice(t: string)
    ensures forall j :: 0 <= j < |TrimEnd(t)| ==> TrimEnd(t)[j] == t[j]
  {
  }
}

=== FILE: tmdb.dfy ===
/**
 * The pure parts of the show-metadata client `src/lib/tmdb.ts`: the
 * choice between bearer-token and api-key authentication, the mapping of
 * each response (or failure) of the wrappers to their results, and poster
 * URLs. The requests themselves are outcomes passed in.
 */
module Tmdb {
  import opened Wrappers
  import opened Text

  /** The fields of `TMDBShow` this system reads. */
  datatype ShowDetails = ShowDetails(name: string, posterPath: Option<string>, numberOfSeasons: int)

  /** The fields of `TMDBSeason` this system reads. */
  datatype SeasonDetails = SeasonDetails(seasonNumber: int, episodeCount: nat)

  /** A search hit (`TMDBSearchResult`). */
  datatype SearchHit = SearchHit(id: int, name: string, posterPath: Option<string>, firstAirDate: string)

  /** What `fetch` produced: a response with a status and a parsed body, or a thrown error. */
  datatype FetchOutcome<T> = Responded(status: int, body: T) | NetworkError

  /** `response.ok`: a 2xx status. */
  predicate IsOk(status: int) {
    200 <= status <= 299
  }

  /** The request headers' authorisation and the query-string suffix. */
  datatype Auth = Auth(authorization: Option<string>, apiKeyParam: string)

  /**
   * `TMDB_API_KEY && TMDB_API_KEY.length > 50`: only a long key is a bearer
   * token, its length counted in UTF-16 code units.
   */
  predicate IsBearer(apiKey: Option<string>) {
    apiKey.Some? && apiKey.value != "" && Utf16Length(apiKey.value) > 50
  }

  /** For a key of code points up to U+FFFF, bearer mode is a key of more than 50 characters. */
  lemma BmpKeyIsBearer(key: string)
    requires forall i :: 0 <= i < |key| ==> key[i] as int < 0x1_0000
    ensures IsBearer(Some(key)) <==> |key| > 50
  {
    Utf16LengthBmp(key);
  }

  /** `${TMDB_API_KEY}` for a key that may be undefined. */
  function KeyText(apiKey: Option<string>): string {
    apiKey.GetOr("undefined")
  }

  /**
   * The authentication in use: a bearer token goes in the `Authorization`
   * header and nothing goes in the URL; any other key (even an undefined
   * one) goes in the URL as `&api_key=...` and no header is sent.
   */
  function AuthFor(apiKey: Option<string>): (a: Auth)
    ensures a.authorization.Some? <==> IsBearer(apiKey)
    ensures a.authorization.Some? <==> a.apiKeyParam == ""
    ensures IsBearer(apiKey) ==> a.authorization == Some("Bearer " + apiKey.value)
    ensures !IsBearer(apiKey) ==> a.apiKeyParam == "&api_key=" + KeyText(apiKey)
  {
    if IsBearer(apiKey) then Auth(Some("Bearer " + apiKey.value), "")
    else Auth(None, "&api_key=" + KeyText(apiKey))
  }

  /** A search: whether a request was sent, and the hits returned. */
  datatype Search = Search(requested: bool, hits: seq<SearchHit>)

  /**
   * `searchShows`: an empty query returns `[]` without a request; a
   * non-2xx status or a thrown error also gives `[]`.
   */
  function SearchShows(query: string, response: FetchOutcome<seq<SearchHit>>): (r: Search)
    ensures r.requested <==> query != ""
    ensures r.hits != [] ==> query != "" && response.Responded? && IsOk(response.status) && r.hits == response.body
    ensures query != "" && response.Responded? && IsOk(response.status) ==> r.hits == response.body
  {
    if query == "" then Search(false, [])
    else match response
      case Responded(status, body) => if IsOk(status) then Search(true, body) else Search(true, [])
      case NetworkError => Search(true, [])
  }

  /** The body of a 2xx response; `null` for a 404, any other status, or a thrown error. */
  function BodyIfOk<T>(response: FetchOutcome<T>): (r: Option<T>)
    ensures r.Some? <==> response.Responded? && IsOk(response.status)
    ensures r.Some? ==> r.value == response.body
  {
    match response
    case Responded(status, body) =>
      if IsOk(status) then Some(body)
      else if status == 404 then None  // returned directly
      else None                        // thrown, then caught
    case NetworkError => None
  }

  /** `getShowDetails`. */
  function GetShowDetails(response: FetchOutcome<ShowDetails>): (r: Option<ShowDetails>)
    ensures r.Some? <==> response.Responded? && IsOk(response.status)
    ensures r.Some? ==> r.value == response.body
  {
    BodyIfOk(response)
  }

  /** `getSeasonDetails`. */
  function GetSeasonDetails(response: FetchOutcome<SeasonDetails>): (r: Option<SeasonDetails>)
    ensures r.Some? <==> response.Responded? && IsOk(response.status)
    ensures r.Some? ==> r.value == response.body
  {
    BodyIfOk(response)
  }

  /** The poster sizes the image service offers. */
  datatype ImageSize = W92 | W154 | W185 | W342 | W500 | W780 | Original {
    function Name(): string {
      match this
      case W92 => "w92"
      case W154 => "w154"
      case W185 => "w185"
      case W342 => "w342"
      case W500 => "w500"
      case W780 => "w780"
      case Original => "original"
    }
  }

  const Placeholder: string := "https://via.placeholder.com/500x750?text=No+Poster"
  const ImageBase: string := "https://image.tmdb.org/t/p/"
  const DefaultSize: ImageSize := W500

  /** `getTMDBImageUrl`: the placeholder for a missing or empty path, else base, size and path. */
  function ImageUrl(path: Option<string>, size: ImageSize): (url: string)
    ensures path.None? || path.value == "" ==> url == Placeholder
    ensures path.Some? && path.value != "" ==> url == ImageBase + size.Name() + path.value
  {
    if path.None? || path.value == "" then Placeholder else ImageBase + size.Name() + path.value
  }

  /** `getTMDBImageUrl(path)`: the size defaults to `'w500'`. */
  function PosterUrl(path: Option<string>): (url: string)
    ensures path.None? || path.value == "" ==> url == Placeholder
    ensures path.Some? && path.value != "" ==> url == "https://image.tmdb.org/t/p/w500" + path.value
  {
    ImageUrl(path, DefaultSize)
  }

  /**
   * A poster URL never collides with the placeholder, and for one size it
   * determines the path: the URL can be read back.
   */
  lemma ImageUrlInjective(p: string, q: string, size: ImageSize)
    requires p != "" && q != ""
    ensures ImageUrl(Some(p), size) != Placeholder
    ensures ImageUrl(Some(p), size) == ImageUrl(Some(q), size) ==> p == q
  {
    var u := ImageUrl(Some(p), size);
    assert u[8] == 'i' && Placeholder[8] == 'v';
    var n := |ImageBase + size.Name()|;
    if u == ImageUrl(Some(q), size) {
      assert p == u[n..];
    }
  }
}

=== FILE: vote_chart.dfy ===
/**
 * The data behind `src/components/VoteChart.tsx`: the "no data" case, one
 * bar per breakdown entry labelled `S{season}E{episode}`, bars ordered by
 * season then episode, and the highlighted verdict bar.
 */
module VoteChart {
  import opened Wrappers
  import opened Text
  import opened EpisodeKey
  import opened Grouping
  import opened Votes

  /** One bar: its label, its count, and the season and episode it stands for. */
  datatype Row = Row(name: string, count: nat, season: int, episode: int)

  /** `S${s}E${e}`. */
  function Label(season: int, episode: int): string {
    "S" + IntStr(season) + "E" + IntStr(episode)
  }

  /** The bar for one `[key, count]` entry, its numbers read back from the key. */
  function ToRow(e: Entry): Row {
    var pair := KeyPair(e.key);
    Row(Label(pair.0, pair.1), e.count, pair.0, pair.1)
  }

  function ToRows(es: seq<Entry>): (rows: seq<Row>)
    ensures |rows| == |es| && forall i :: 0 <= i < |es| ==> rows[i] == ToRow(es[i])
  {
    seq(|es|, i requires 0 <= i < |es| => ToRow(es[i]))
  }

  /** The comparator's order: by season, then by episode. */
  predicate RowLe(a: Row, b: Row) {
    a.season < b.season || (a.season == b.season && a.episode <= b.episode)
  }

  predicate SortedAsc(rows: seq<Row>) {
    forall i :: 0 < i < |rows| ==> RowLe(rows[i - 1], rows[i])
  }

  /** Puts `x` in front of the first bar not ordered before it. */
  function InsertRow(x: Row, rows: seq<Row>): (r: seq<Row>)
    requires SortedAsc(rows)
    ensures SortedAsc(r)
    ensures multiset(r) == multiset(rows) + multiset{x}
    ensures r[0] == x || (|rows| > 0 && r[0] == rows[0])
  {
    if |rows| == 0 || RowLe(x, rows[0]) then [x] + rows
    else
      assert SortedAsc(rows[1..]) by {
        forall i | 0 < i < |rows[1..]| ensures RowLe(rows[1..][i - 1], rows[1..][i]) {
          assert rows[1..][i - 1] == rows[i] && rows[1..][i] == rows[i + 1];
        }
      }
      var rest := InsertRow(x, rows[1..]);
      assert RowLe(rows[0], rest[0]);
      assert rows == [rows[0]] + rows[1..];
      [rows[0]] + rest
  }

  /**
   * `.sort(...)` with the season-then-episode comparator; the sort is
   * stable, so bars for the same pair keep their order.
   */
  function SortRows(rows: seq<Row>): (r: seq<Row>)
    ensures SortedAsc(r)
    ensures multiset(r) == multiset(rows) && |r| == |rows|
  {
    if |rows| == 0 then []
    else
      assert rows == [rows[0]] + rows[1..];
      var r := InsertRow(rows[0], SortRows(rows[1..]));
      assert |r| == |multiset(r)|;
      r
  }

  /**
   * The chart's data: `None` when there are no statistics (the "No Data
   * Collected Yet" panel), otherwise one bar per breakdown entry, sorted.
   */
  function ChartData(stats: Option<VoteStats>): (r: Option<seq<Row>>)
    ensures r.None? <==> stats.None?
    ensures r.Some? ==>
      && |r.value| == |stats.value.breakdown|
      && SortedAsc(r.value)
      && multiset(r.value) == multiset(ToRows(stats.value.breakdown))
  {
    match stats
    case None => None
    case Some(st) => Some(SortRows(ToRows(st.breakdown)))
  }

  /** Every bar stands for one breakdown entry and every entry has its bar. */
  lemma RowsMatchEntries(st: VoteStats)
    ensures var rows := ChartData(Some(st)).value;
      && (forall i :: 0 <= i < |rows| ==>
            exists j :: 0 <= j < |st.breakdown| && rows[i] == ToRow(st.breakdown[j]))
      && (forall j :: 0 <= j < |st.breakdown| ==> ToRow(st.breakdown[j]) in rows)
      && (forall i :: 0 <= i < |rows| ==> rows[i].name == Label(rows[i].season, rows[i].episode))
  {
    var rows := ChartData(Some(st)).value;
    forall i | 0 <= i < |rows|
      ensures exists j :: 0 <= j < |st.breakdown| && rows[i] == ToRow(st.breakdown[j])
    {
      var a := BarOfSomeEntry(rows, st.breakdown, i);
    }
    forall j | 0 <= j < |st.breakdown| ensures ToRow(st.breakdown[j]) in rows {
      EntryHasBar(rows, st.breakdown, j);
    }
  }

  /** Every entry's bar is among a permutation of the entries' bars. */
  lemma EntryHasBar(rows: seq<Row>, bd: seq<Entry>, j: int)
    requires multiset(rows) == multiset(ToRows(bd))
    requires 0 <= j < |bd|
    ensures ToRow(bd[j]) in rows
  {
    var src := ToRows(bd);
    assert src[j] in multiset(src);
    assert src[j] in multiset(rows);
  }

  /** `entry.season === stats.season && entry.episode === stats.episode`. */
  predicate Highlighted(row: Row, st: VoteStats) {
    row.season == st.season && row.episode == st.episode
  }


  /** Every entry's key is the key of the (season, episode) its bar parses it as. */
  predicate ReadsBack(bd: seq<Entry>) {
    forall a :: 0 <= a < |bd| ==> Key(ToRow(bd[a]).season, ToRow(bd[a]).episode) == bd[a].key
  }

  /** An entry keyed by a non-negative pair reads back as that pair. */
  lemma EntryReadsBack(e: Entry, season: int, episode: int)
    requires season >= 0 && episode >= 0 && e.key == Key(season, episode)
    ensures Key(ToRow(e).season, ToRow(e).episode) == e.key
  {
    KeyParse(season, episode);
  }

  /** Entries whose keys are all keys of non-negative votes read back to themselves. */
  lemma KeysOfVotesReadBack(bd: seq<Entry>, votes: seq<Vote>)
    requires NonNegative(votes)
    requires forall a :: 0 <= a < |bd| ==> bd[a].key in VoteKeys(votes)
    ensures ReadsBack(bd)
  {
    var keys := VoteKeys(votes);
    forall a | 0 <= a < |bd|
      ensures Key(ToRow(bd[a]).season, ToRow(bd[a]).episode) == bd[a].key
    {
      var v :| 0 <= v < |keys| && keys[v] == bd[a].key;
      EntryReadsBack(bd[a], votes[v].season, votes[v].episode);
    }
  }

  /** Every key of the count table occurs in the input. */
  lemma TallyKeysOccur(ks: seq<string>)
    ensures forall a :: 0 <= a < |Tally(ks)| ==> Tally(ks)[a].key in ks
  {
    var es := Tally(ks);
    TallyCorrect(ks);
    forall a | 0 <= a < |es| ensures es[a].key in ks {
      assert es[a].key in KeysOf(es);
    }
  }

  /** For non-negative votes, every breakdown key is the key of the pair it reads back as. */
  lemma BreakdownKeysReadBack(votes: seq<Vote>)
    requires |votes| > 0 && NonNegative(votes)
    ensures ReadsBack(ComputeStats(votes).value.breakdown)
  {
    StatsBreakdown(votes);
    TallyKeysOccur(VoteKeys(votes));
    KeysOfVotesReadBack(Tally(VoteKeys(votes)), votes);
  }

  /** Every bar of a permutation of the entries' bars is some entry's bar. */
  lemma BarOfSomeEntry(rows: seq<Row>, bd: seq<Entry>, i: int) returns (a: int)
    requires multiset(rows) == multiset(ToRows(bd))
    requires 0 <= i < |rows|
    ensures 0 <= a < |bd| && rows[i] == ToRow(bd[a])
  {
    var src := ToRows(bd);
    assert rows[i] in multiset(rows);
    assert rows[i] in multiset(src);
    a :| 0 <= a < |src| && src[a] == rows[i];
  }

  /** Entries whose bars show the same pair are the same entry, when keys are distinct and read back. */
  lemma SamePairSameEntry(bd: seq<Entry>, a: int, b: int)
    requires DistinctKeys(bd) && ReadsBack(bd)
    requires 0 <= a < |bd| && 0 <= b < |bd|
    requires ToRow(bd[a]).season == ToRow(bd[b]).season && ToRow(bd[a]).episode == ToRow(bd[b]).episode
    ensures a == b
  {
    assert bd[a].key == bd[b].key;
  }

  /** Two bars of a permutation of the entries' bars with the same pair are the same bar, and it occurs once. */
  lemma SamePairSameRow(rows: seq<Row>, bd: seq<Entry>, i: int, j: int)
    requires multiset(rows) == multiset(ToRows(bd)) && DistinctKeys(bd) && ReadsBack(bd)
    requires 0 <= i < |rows| && 0 <= j < |rows|
    requires rows[i].season == rows[j].season && rows[i].episode == rows[j].episode
    ensures rows[i] == rows[j] && multiset(rows)[rows[i]] == 1
  {
    var a := BarOfSomeEntry(rows, bd, i);
    var b := BarOfSomeEntry(rows, bd, j);
    SamePairSameEntry(bd, a, b);
    OneCopy(bd, a);
  }

  /** Two positions of a permutation of the bars holding the same pair are one position. */
  lemma SamePairSamePosition(rows: seq<Row>, bd: seq<Entry>, i: int, j: int)
    requires multiset(rows) == multiset(ToRows(bd)) && DistinctKeys(bd) && ReadsBack(bd)
    requires 0 <= i < |rows| && 0 <= j < |rows|
    requires rows[i].season == rows[j].season && rows[i].episode == rows[j].episode
    ensures i == j
  {
    SamePairSameRow(rows, bd, i, j);
    OnceMeansOnePosition(rows, i, j);
  }

  /** Positions holding a value that occurs once are the same position. */
  lemma OnceMeansOnePosition<T>(s: seq<T>, i: int, j: int)
    requires 0 <= i < |s| && 0 <= j < |s| && s[i] == s[j] && multiset(s)[s[i]] == 1
    ensures i == j
  {
    if i < j {
      TwoCopies(s, i, j);
    } else if j < i {
      TwoCopies(s, j, i);
    }
  }

  /** Two positions holding the same value put it in the multiset twice. */
  lemma TwoCopies<T>(s: seq<T>, i: int, j: int)
    requires 0 <= i < j < |s| && s[i] == s[j]
    ensures multiset(s)[s[i]] >= 2
  {
    assert s == s[..j] + s[j..];
    assert s[i] in s[..j];
    assert s[j..][0] == s[i];
  }

  /** A value found at one position only occurs once in the multiset. */
  lemma CountOnce<T>(s: seq<T>, a: int)
    requires 0 <= a < |s|
    requires forall b :: 0 <= b < |s| && b != a ==> s[b] != s[a]
    ensures multiset(s)[s[a]] == 1
  {
    var x := s[a];
    assert s == s[..a] + [x] + s[a + 1..];
    assert x !in s[..a];
    assert x !in s[a + 1..];
  }

  /** The bar of an entry with a distinct key occurs once among the entries' bars. */
  lemma OneCopy(bd: seq<Entry>, a: int)
    requires DistinctKeys(bd) && ReadsBack(bd) && 0 <= a < |bd|
    ensures multiset(ToRows(bd))[ToRow(bd[a])] == 1
  {
    var src := ToRows(bd);
    forall b | 0 <= b < |src| && b != a ensures src[b] != src[a] {
      assert bd[b].key != bd[a].key;
    }
    CountOnce(src, a);
  }

  /** The verdict's bar is highlighted. */
  lemma VerdictBarHighlighted(st: VoteStats)
    requires |st.breakdown| > 0
    requires (st.season, st.episode) == KeyPair(st.breakdown[FirstMax(st.breakdown)].key)
    ensures var rows := ChartData(Some(st)).value;
      exists i :: 0 <= i < |rows| && Highlighted(rows[i], st)
  {
    var bd := st.breakdown;
    var rows := ChartData(Some(st)).value;
    var m := FirstMax(bd);
    var x := ToRow(bd[m]);
    assert x == ToRows(bd)[m];
    assert x in multiset(ToRows(bd));
    assert x in multiset(rows);
    var k :| 0 <= k < |rows| && rows[k] == x;
    assert Highlighted(rows[k], st);
  }

  /** At most one bar is highlighted when keys are distinct and read back to themselves. */
  lemma AtMostOneHighlighted(st: VoteStats)
    requires DistinctKeys(st.breakdown) && ReadsBack(st.breakdown)
    ensures var rows := ChartData(Some(st)).value;
      forall i, j :: 0 <= i < |rows| && 0 <= j < |rows| && Highlighted(rows[i], st) && Highlighted(rows[j], st) ==> i == j
  {
    var rows := ChartData(Some(st)).value;
    forall i, j | 0 <= i < |rows| && 0 <= j < |rows| && Highlighted(rows[i], st) && Highlighted(rows[j], st)
      ensures i == j
    {
      SamePairSamePosition(rows, st.breakdown, i, j);
    }
  }

  /**
   * For votes with non-negative seasons and episodes, exactly one bar is
   * highlighted: the verdict's.
   */
  lemma OneHighlightedBar(votes: seq<Vote>)
    requires |votes| > 0 && NonNegative(votes)
    ensures var st := ComputeStats(votes).value;
      var rows := ChartData(Some(st)).value;
      && (exists i :: 0 <= i < |rows| && Highlighted(rows[i], st))
      && (forall i, j :: 0 <= i < |rows| && 0 <= j < |rows| && Highlighted(rows[i], st) && Highlighted(rows[j], st) ==> i == j)
  {
    var st := ComputeStats(votes).value;
    BreakdownKeysReadBack(votes);
    VerdictBarHighlighted(st);
    AtMostOneHighlighted(st);
  }
}

=== FILE: vote_route.dfy ===
/**
 * The `POST` handler of `src/pages/api/vote.ts`: field validation, the
 * client address and user-agent fallbacks, then resolve the show, submit
 * the vote and return the show's statistics.
 */
module VoteRoute {
  import opened Wrappers
  import opened Tmdb
  import opened Votes
  import opened Shows

  /** The two tables the handler touches. */
  datatype Db = Db(shows: ShowTable, votes: VoteTable)

  /**
   * The parts of the request the handler reads: the JSON fields (absent
   * fields are `None`), the `user-agent` and `x-forwarded-for` headers, and
   * the platform's client address.
   */
  datatype VoteRequest = VoteRequest(
    tmdbId: Option<int>,
    season: Option<int>,
    episode: Option<int>,
    tag: Option<string>,
    userAgent: Option<string>,
    clientAddress: Option<string>,
    forwardedFor: Option<string>)

  /** Where, if anywhere, a storage call throws. */
  datatype Fault = NoFault | ResolveFault | SubmitFault | StatsFault

  /** The response status and body, the tables afterwards, and the fingerprint derived (if it got that far). */
  datatype Response = Response(status: int, stats: Option<VoteStats>, db: Db, fingerprint: Option<Digest>)

  /** A number field is truthy when present and not 0. */
  predicate Truthy(n: Option<int>) {
    n.Some? && n.value != 0
  }

  /** `!tmdbId || !season || !episode`. */
  predicate MissingFields(req: VoteRequest) {
    !Truthy(req.tmdbId) || !Truthy(req.season) || !Truthy(req.episode)
  }

  /** `header || fallback`: a missing or empty string falls through. */
  function OrElse(text: Option<string>, fallback: string): (r: string)
    ensures text.Some? && text.value != "" ==> r == text.value
    ensures text.None? || text.value == "" ==> r == fallback
  {
    if text.Some? && text.value != "" then text.value else fallback
  }

  function UserAgentOf(req: VoteRequest): string {
    OrElse(req.userAgent, "")
  }

  /** `clientAddress || x-forwarded-for || 'unknown'`: never empty. */
  function ClientIp(req: VoteRequest): (ip: string)
    ensures ip != ""
    ensures req.clientAddress.Some? && req.clientAddress.value != "" ==> ip == req.clientAddress.value
    ensures (req.clientAddress.None? || req.clientAddress.value == "") && req.forwardedFor.Some? && req.forwardedFor.value != "" ==>
      ip == req.forwardedFor.value
    ensures (req.clientAddress.None? || req.clientAddress.value == "") && (req.forwardedFor.None? || req.forwardedFor.value == "") ==>
      ip == "unknown"
  {
    OrElse(req.clientAddress, OrElse(req.forwardedFor, "unknown"))
  }

  /**
   * The handler. `details` is what fetching the show's metadata would
   * return, `now` the clock, `sha256` the hash, and `fault` the storage
   * call that throws, if any.
   */
  function HandleVote(db: Db, req: VoteRequest, now: int, sha256: string -> Digest,
                      details: Option<ShowDetails>, fault: Fault): (r: Response)
    ensures MissingFields(req) ==> r.status == 400 && r.db == db && r.fingerprint.None?
  {
    if MissingFields(req) then Response(400, None, db, None)
    else
      var fingerprint := CreateFingerprint(sha256, ClientIp(req), UserAgentOf(req));
      if fault == ResolveFault then Response(500, None, db, Some(fingerprint))
      else
        var resolved := GetOrCreateShow(db.shows, req.tmdbId.value, now, details);
        var db1 := db.(shows := resolved.table);
        if resolved.show.None? then Response(404, None, db1, Some(fingerprint))
        else if fault == SubmitFault then Response(500, None, db1, Some(fingerprint))
        else
          var showId := resolved.show.value.id;
          var submitted := SubmitVote(db.votes, showId, req.season.value, req.episode.value,
                                      fingerprint, req.tag, now);
          var db2 := db1.(votes := submitted.table);
          if fault == StatsFault then Response(500, None, db2, Some(fingerprint))
          else Response(200, GetVoteStats(submitted.table, showId), db2, Some(fingerprint))
  }

  /**
   * The handler above chains the corrected submission. With `submitVote` as
   * written, a voter without a row on the resolved show makes it throw, so
   * the request takes the path of a throwing submission: a 500, no
   * statistics, and no vote stored.
   */
  lemma FirstVoteAnswers500AsWritten(db: Db, req: VoteRequest, now: int, sha256: string -> Digest,
                                     details: Option<ShowDetails>)
    requires !MissingFields(req)
    ensures var fp := CreateFingerprint(sha256, ClientIp(req), UserAgentOf(req));
      var resolved := GetOrCreateShow(db.shows, req.tmdbId.value, now, details);
      resolved.show.Some? && CanUserVote(db.votes, fp, resolved.show.value.id) ==>
        && SubmitVoteAsWritten(db.votes, resolved.show.value.id, req.season.value, req.episode.value, fp, now).Threw?
        && var r := HandleVote(db, req, now, sha256, details, SubmitFault);
           r.status == 500 && r.stats.None? && r.db.votes == db.votes
  {
  }

  /** A 400 is returned exactly when a required field is missing or 0, and then nothing is touched. */
  lemma BadRequestIffMissingField(db: Db, req: VoteRequest, now: int, sha256: string -> Digest,
                                  details: Option<ShowDetails>, fault: Fault)
    ensures var r := HandleVote(db, req, now, sha256, details, fault);
      (r.status == 400 <==> MissingFields(req))
      && (r.status == 400 ==> r.db == db && r.fingerprint.None?)
  {
  }

  /** The voter is the fingerprint of the client address (or its fallbacks) and the user agent (or ''). */
  lemma FingerprintFromRequest(db: Db, req: VoteRequest, now: int, sha256: string -> Digest,
                               details: Option<ShowDetails>, fault: Fault)
    requires !MissingFields(req)
    ensures HandleVote(db, req, now, sha256, details, fault).fingerprint
      == Some(sha256(ClientIp(req) + "-" + UserAgentOf(req)))
  {
  }

  /** When the show cannot be resolved the answer is 404 and no vote is written. */
  lemma UnknownShowWritesNoVote(db: Db, req: VoteRequest, now: int, sha256: string -> Digest,
                                details: Option<ShowDetails>, fault: Fault)
    requires !MissingFields(req) && fault != ResolveFault
    requires GetOrCreateShow(db.shows, req.tmdbId.value, now, details).show.None?
    ensures var r := HandleVote(db, req, now, sha256, details, fault);
      r.status == 404 && r.db.votes == db.votes && r.db.shows == db.shows && r.stats.None?
  {
  }

  /**
   * A 200 comes from exactly one submission for the resolved show, and
   * carries that show's statistics afterwards.
   */
  lemma SuccessSubmitsOnce(db: Db, req: VoteRequest, now: int, sha256: string -> Digest,
                           details: Option<ShowDetails>, fault: Fault)
    ensures var r := HandleVote(db, req, now, sha256, details, fault);
      r.status == 200 ==>
        var resolved := GetOrCreateShow(db.shows, req.tmdbId.value, now, details);
        var showId := resolved.show.value.id;
        && !MissingFields(req) && fault == NoFault && resolved.show.Some?
        && r.fingerprint.Some?
        && r.db.shows == resolved.table
        && r.db.votes == SubmitVote(db.votes, showId, req.season.value, req.episode.value,
                                    r.fingerprint.value, req.tag, now).table
        && r.stats == GetVoteStats(r.db.votes, showId)
  {
  }

  /** The statistics of a 200 are present and count the vote just cast, and the voter cannot vote again. */
  lemma SuccessCountsVote(db: Db, req: VoteRequest, now: int, sha256: string -> Digest,
                          details: Option<ShowDetails>, fault: Fault)
    ensures var r := HandleVote(db, req, now, sha256, details, fault);
      r.status == 200 ==>
        var showId := GetOrCreateShow(db.shows, req.tmdbId.value, now, details).show.value.id;
        && r.stats.Some? && r.stats.value.totalVotes >= 1
        && !CanUserVote(r.db.votes, r.fingerprint.value, showId)
  {
    var r := HandleVote(db, req, now, sha256, details, fault);
    SuccessSubmitsOnce(db, req, now, sha256, details, fault);
    if r.status == 200 {
      var showId := GetOrCreateShow(db.shows, req.tmdbId.value, now, details).show.value.id;
      var fp := r.fingerprint.value;
      SubmitClosesVoting(db.votes, showId, req.season.value, req.episode.value, fp, req.tag, now);
      StoredVoteCounts(r.db.votes, fp, showId);
    }
  }

  /** A show with a stored vote has statistics counting at least one vote. */
  lemma StoredVoteCounts(t: VoteTable, fingerprint: string, showId: int)
    requires !CanUserVote(t, fingerprint, showId)
    ensures GetVoteStats(t, showId).Some? && GetVoteStats(t, showId).value.totalVotes >= 1
  {
    var i :| 0 <= i < |t.rows| && Matches(t.rows[i], showId, fingerprint);
    assert t.rows[i].showId == showId;
    assert t.rows[i] in VotesFor(t.rows, showId);
  }

  /** Every status is one of 200, 400, 404 and 500, and a thrown storage error is a 500. */
  lemma StatusCodes(db: Db, req: VoteRequest, now: int, sha256: string -> Digest,
                    details: Option<ShowDetails>, fault: Fault)
    ensures var r := HandleVote(db, req, now, sha256, details, fault);
      && r.status in {200, 400, 404, 500}
      && (r.status == 500 <==>
            && !MissingFields(req) && fault != NoFault
            && (fault == ResolveFault || GetOrCreateShow(db.shows, req.tmdbId.value, now, details).show.Some?))
      && (r.status == 200 || r.status == 404 ==> fault != ResolveFault)
  {
  }

  /** Whatever the outcome, the handler adds at most one vote row and removes none. */
  lemma AtMostOneNewRow(db: Db, req: VoteRequest, now: int, sha256: string -> Digest,
                        details: Option<ShowDetails>, fault: Fault)
    ensures var r := HandleVote(db, req, now, sha256, details, fault);
      |db.votes.rows| <= |r.db.votes.rows| <= |db.votes.rows| + 1
  {
  }
}

=== FILE: votes.dfy ===
/**
 * The vote lifecycle of `src/lib/votes.ts`: the voter fingerprint, the
 * one-vote-per-(show, fingerprint) store with its update-or-insert
 * submission, and the statistics computed from a show's votes.
 */
module Votes {
  import opened Wrappers
  import opened Text
  import opened EpisodeKey
  import opened Grouping

  predicate IsLowerHex(c: char) {
    '0' <= c <= '9' || 'a' <= c <= 'f'
  }

  predicate IsHexDigest(s: string) {
    |s| == 64 && forall i :: 0 <= i < |s| ==> IsLowerHex(s[i])
  }

  /** A SHA-256 digest rendered by `digest('hex')`: 64 lower-case hex digits. */
  type Digest = s: string | IsHexDigest(s) witness seq(64, i => '0')

  /**
   * `createFingerprint`: the digest of `ip + "-" + userAgent`. The hash
   * function itself (SHA-256) is a parameter; only its output format is
   * assumed.
   */
  function CreateFingerprint(sha256: string -> Digest, ip: string, userAgent: string): Digest {
    sha256(ip + "-" + userAgent)
  }

  /**
   * The fingerprint depends on the joined string only, so moving a '-'
   * across the separator does not change it.
   */
  lemma FingerprintOfJoined(sha256: string -> Digest, ip: string, userAgent: string, ip': string, userAgent': string)
    requires ip + "-" + userAgent == ip' + "-" + userAgent'
    ensures CreateFingerprint(sha256, ip, userAgent) == CreateFingerprint(sha256, ip', userAgent')
  {
  }

  /** ("a-b", "c") and ("a", "b-c") are the same voter, whatever the hash. */
  lemma FingerprintSeparatorClash(sha256: string -> Digest)
    ensures CreateFingerprint(sha256, "a-b", "c") == CreateFingerprint(sha256, "a", "b-c")
  {
    assert "a-b" + "-" + "c" == "a" + "-" + "b-c";
  }

  /** A row of the `votes` table. */
  datatype Vote = Vote(
    id: nat,
    showId: int,
    season: int,
    episode: int,
    tag: Option<string>,
    fingerprint: string,
    createdAt: int)

  /** The `votes` table: its rows in storage order and the next id to hand out. */
  datatype VoteTable = VoteTable(rows: seq<Vote>, nextId: nat)

  predicate Matches(v: Vote, showId: int, fingerprint: string) {
    v.showId == showId && v.fingerprint == fingerprint
  }

  /** `findFirst({ where: { show_id, fingerprint } })`: the first matching row. */
  function FindVote(rows: seq<Vote>, showId: int, fingerprint: string): (r: Option<nat>)
    ensures r.None? <==> forall i :: 0 <= i < |rows| ==> !Matches(rows[i], showId, fingerprint)
    ensures r.Some? ==> r.value < |rows| && Matches(rows[r.value], showId, fingerprint)
    ensures r.Some? ==> forall i :: 0 <= i < r.value ==> !Matches(rows[i], showId, fingerprint)
  {
    if |rows| == 0 then None
    else if Matches(rows[0], showId, fingerprint) then Some(0)
    else match FindVote(rows[1..], showId, fingerprint)
      case None => None
      case Some(i) => Some(i + 1)
  }

  /** `canUserVote`: no row has this show and fingerprint. */
  function CanUserVote(t: VoteTable, fingerprint: string, showId: int): (r: bool)
    ensures r <==> forall i :: 0 <= i < |t.rows| ==> !Matches(t.rows[i], showId, fingerprint)
  {
    FindVote(t.rows, showId, fingerprint).None?
  }

  /** `tag || null`: an absent or empty tag is stored as null. */
  function StoredTag(tag: Option<string>): (r: Option<string>)
    ensures r.None? <==> tag.None? || tag.value == ""
    ensures r.Some? ==> r == tag
  {
    if tag.Some? && tag.value != "" then tag else None
  }

  /** The table after a submission, and the row it wrote. */
  datatype Submitted = Submitted(table: VoteTable, vote: Vote)

  /**
   * `submitVote`, with the tag as its fifth parameter (the route passes it
   * there) and the insert storing the fingerprint argument. A voter who
   * already voted on the show has that row's season, episode and time
   * overwritten, and keeps its tag; a new voter gets a new row.
   */
  function SubmitVote(t: VoteTable, showId: int, season: int, episode: int, fingerprint: string,
                      tag: Option<string>, now: int): (r: Submitted)
    ensures FindVote(t.rows, showId, fingerprint).Some? ==>
      var i := FindVote(t.rows, showId, fingerprint).value;
      && |r.table.rows| == |t.rows| && r.table.nextId == t.nextId
      && r.vote == r.table.rows[i]
      && r.vote.id == t.rows[i].id && r.vote.tag == t.rows[i].tag
      && r.vote.showId == showId && r.vote.fingerprint == fingerprint
      && r.vote.season == season && r.vote.episode == episode && r.vote.createdAt == now
      && (forall j :: 0 <= j < |t.rows| && j != i ==> r.table.rows[j] == t.rows[j])
    ensures FindVote(t.rows, showId, fingerprint).None? ==>
      && r.table.rows == t.rows + [r.vote] && r.table.nextId == t.nextId + 1
      && r.vote.id == t.nextId && r.vote.showId == showId && r.vote.fingerprint == fingerprint
      && r.vote.season == season && r.vote.episode == episode && r.vote.createdAt == now
      && r.vote.tag == StoredTag(tag)
  {
    match FindVote(t.rows, showId, fingerprint)
    case Some(i) =>
      var v := t.rows[i].(season := season, episode := episode, createdAt := now);
      Submitted(t.(rows := t.rows[i := v]), v)
    case None =>
      var v := Vote(t.nextId, showId, season, episode, StoredTag(tag), fingerprint, now);
      Submitted(VoteTable(t.rows + [v], t.nextId + 1), v)
  }

  /** At most one row per (show, fingerprint). */
  predicate OneVotePerVoter(rows: seq<Vote>) {
    forall i, j :: 0 <= i < j < |rows| ==> !Matches(rows[i], rows[j].showId, rows[j].fingerprint)
  }

  /** The store invariant: one vote per voter, distinct ids all below `nextId`. */
  predicate WellFormed(t: VoteTable) {
    && OneVotePerVoter(t.rows)
    && (forall i :: 0 <= i < |t.rows| ==> t.rows[i].id < t.nextId)
    && (forall i, j :: 0 <= i < j < |t.rows| ==> t.rows[i].id != t.rows[j].id)
  }

  /** Submitting keeps the store invariant. */
  lemma SubmitKeepsWellFormed(t: VoteTable, showId: int, season: int, episode: int, fingerprint: string,
                              tag: Option<string>, now: int)
    requires WellFormed(t)
    ensures WellFormed(SubmitVote(t, showId, season, episode, fingerprint, tag, now).table)
  {
    var r := SubmitVote(t, showId, season, episode, fingerprint, tag, now);
    match FindVote(t.rows, showId, fingerprint)
    case Some(i) =>
      forall a, b | 0 <= a < b < |r.table.rows|
        ensures !Matches(r.table.rows[a], r.table.rows[b].showId, r.table.rows[b].fingerprint)
      {
        assert Matches(r.table.rows[a], r.table.rows[b].showId, r.table.rows[b].fingerprint)
          <==> Matches(t.rows[a], t.rows[b].showId, t.rows[b].fingerprint);
      }
    case None =>
  }

  /** After a submission the voter can no longer vote on the show. */
  lemma SubmitClosesVoting(t: VoteTable, showId: int, season: int, episode: int, fingerprint: string,
                           tag: Option<string>, now: int)
    ensures !CanUserVote(SubmitVote(t, showId, season, episode, fingerprint, tag, now).table, fingerprint, showId)
  {
    var r := SubmitVote(t, showId, season, episode, fingerprint, tag, now);
    match FindVote(t.rows, showId, fingerprint)
    case Some(i) =>
      assert Matches(r.table.rows[i], showId, fingerprint);
    case None =>
      assert Matches(r.table.rows[|t.rows|], showId, fingerprint);
  }

  /** Submitting the same vote again never adds a row. */
  lemma ResubmitAddsNoRow(t: VoteTable, showId: int, season: int, episode: int, fingerprint: string,
                          tag: Option<string>, now: int, later: int)
    ensures var first := SubmitVote(t, showId, season, episode, fingerprint, tag, now).table;
      |SubmitVote(first, showId, season, episode, fingerprint, tag, later).table.rows| == |first.rows|
  {
    SubmitClosesVoting(t, showId, season, episode, fingerprint, tag, now);
  }

  /** The positions of a voter's rows for a show. */
  function VoterRows(rows: seq<Vote>, showId: int, fingerprint: string): set<nat> {
    set i: nat | i < |rows| && Matches(rows[i], showId, fingerprint)
  }

  /**
   * A re-vote replaces the first: after two submissions by one voter there
   * is exactly one row for the voter, carrying the second submission's
   * season and episode.
   */
  lemma ReVoteReplaces(t: VoteTable, showId: int, fingerprint: string,
                       s1: int, e1: int, tag1: Option<string>, now1: int,
                       s2: int, e2: int, tag2: Option<string>, now2: int)
    requires WellFormed(t)
    ensures var t1 := SubmitVote(t, showId, s1, e1, fingerprint, tag1, now1).table;
      var t2 := SubmitVote(t1, showId, s2, e2, fingerprint, tag2, now2).table;
      && |VoterRows(t2.rows, showId, fingerprint)| == 1
      && FindVote(t2.rows, showId, fingerprint).Some?
      && t2.rows[FindVote(t2.rows, showId, fingerprint).value].season == s2
      && t2.rows[FindVote(t2.rows, showId, fingerprint).value].episode == e2
  {
    var t1 := SubmitVote(t, showId, s1, e1, fingerprint, tag1, now1).table;
    SubmitKeepsWellFormed(t, showId, s1, e1, fingerprint, tag1, now1);
    SubmitClosesVoting(t, showId, s1, e1, fingerprint, tag1, now1);
    var t2 := SubmitVote(t1, showId, s2, e2, fingerprint, tag2, now2).table;
    SubmitKeepsWellFormed(t1, showId, s2, e2, fingerprint, tag2, now2);
    var i := FindVote(t1.rows, showId, fingerprint).value;
    assert FindVote(t2.rows, showId, fingerprint) == Some(i);
    assert VoterRows(t2.rows, showId, fingerprint) == {i} by {
      assert Matches(t2.rows[i], showId, fingerprint);
    }
  }

  /** The result of the source's `submitVote`, which can throw. */
  datatype Attempt = Completed(result: Submitted) | Threw(error: string)

  /**
   * `submitVote` as written: four parameters, and an insert branch that
   * reads the unbound names `tag` and `uniqueFingerprint`, so evaluating
   * it throws a `ReferenceError`.
   */
  function SubmitVoteAsWritten(t: VoteTable, showId: int, season: int, episode: int,
                               fingerprint: string, now: int): (r: Attempt)
    ensures r.Threw? <==> CanUserVote(t, fingerprint, showId)
    ensures r.Completed? ==> |r.result.table.rows| == |t.rows|
    ensures r.Completed? ==> r.result == SubmitVote(t, showId, season, episode, fingerprint, None, now)
  {
    match FindVote(t.rows, showId, fingerprint)
    case Some(i) =>
      var v := t.rows[i].(season := season, episode := episode, createdAt := now);
      Completed(Submitted(t.(rows := t.rows[i := v]), v))
    case None =>
      Threw("ReferenceError: tag is not defined")
  }

  /** As written, the very first vote for a show fails and stores nothing. */
  lemma FirstVoteThrowsAsWritten(fingerprint: string, now: int)
    ensures SubmitVoteAsWritten(VoteTable([], 1), 1, 1, 1, fingerprint, now).Threw?
    ensures SubmitVote(VoteTable([], 1), 1, 1, 1, fingerprint, None, now).table.rows
      == [Vote(1, 1, 1, 1, None, fingerprint, now)]
  {
  }

  /** `findMany({ where: { show_id } })`: the show's rows, in the stored sequence's order, which stands for the order the database returns (no `orderBy`). */
  function VotesFor(rows: seq<Vote>, showId: int): (r: seq<Vote>)
    ensures |r| <= |rows|
    ensures forall v :: v in r <==> v in rows && v.showId == showId
  {
    if |rows| == 0 then []
    else
      var pre := VotesFor(rows[..|rows| - 1], showId);
      var last := rows[|rows| - 1];
      assert rows == rows[..|rows| - 1] + [last];
      if last.showId == showId then pre + [last] else pre
  }

  /** The show's rows of a concatenation are those of each part, in order: storage order is kept. */
  lemma {:induction false} VotesForConcat(a: seq<Vote>, b: seq<Vote>, showId: int)
    ensures VotesFor(a + b, showId) == VotesFor(a, showId) + VotesFor(b, showId)
    decreases |b|
  {
    if |b| == 0 {
      assert a + b == a;
    } else {
      var b' := b[..|b| - 1];
      var last := b[|b| - 1];
      var keep := if last.showId == showId then [last] else [];
      assert (a + b)[..|a + b| - 1] == a + b' && (a + b)[|a + b| - 1] == last;
      assert VotesFor(a + b, showId) == VotesFor(a + b', showId) + keep;
      assert VotesFor(b, showId) == VotesFor(b', showId) + keep;
      VotesForConcat(a, b', showId);
      assert VotesFor(a, showId) + VotesFor(b', showId) + keep == VotesFor(a, showId) + (VotesFor(b', showId) + keep);
    }
  }

  /** Each of the show's rows is kept as many times as it is stored, and no other row is kept. */
  lemma {:induction false} VotesForMultiplicity(rows: seq<Vote>, showId: int)
    ensures forall v :: multiset(VotesFor(rows, showId))[v] == if v.showId == showId then multiset(rows)[v] else 0
  {
    if |rows| > 0 {
      var pre := rows[..|rows| - 1];
      var last := rows[|rows| - 1];
      VotesForMultiplicity(pre, showId);
      assert rows == pre + [last];
      assert multiset(rows) == multiset(pre) + multiset{last};
      if last.showId == showId {
        assert multiset(VotesFor(rows, showId)) == multiset(VotesFor(pre, showId)) + multiset{last};
      } else {
        assert VotesFor(rows, showId) == VotesFor(pre, showId);
      }
    }
  }

  /** One row is kept iff it belongs to the show. */
  lemma VotesForOne(v: Vote, showId: int)
    ensures VotesFor([v], showId) == if v.showId == showId then [v] else []
  {
    assert [v][..0] == [];
  }

  /** The grouping key of every vote, in order. */
  function VoteKeys(votes: seq<Vote>): (ks: seq<string>)
    ensures |ks| == |votes|
    ensures forall i :: 0 <= i < |votes| ==> ks[i] == Key(votes[i].season, votes[i].episode)
  {
    seq(|votes|, i requires 0 <= i < |votes| => Key(votes[i].season, votes[i].episode))
  }

  const WorthWait: string := "worth-wait"
  const DontWaste: string := "dont-waste"

  /** The number of votes carrying tag `name`. */
  function TagCount(votes: seq<Vote>, name: string): (n: nat)
    ensures n <= |votes|
  {
    if |votes| == 0 then 0
    else TagCount(votes[..|votes| - 1], name) + (if votes[|votes| - 1].tag == Some(name) then 1 else 0)
  }

  /** A vote is counted under at most one of two different tags. */
  lemma {:induction false} TagCountsDisjoint(votes: seq<Vote>, a: string, b: string)
    requires a != b
    ensures TagCount(votes, a) + TagCount(votes, b) <= |votes|
  {
    if |votes| > 0 {
      TagCountsDisjoint(votes[..|votes| - 1], a, b);
    }
  }

  /** The `tags` object: counts under the two recognised tags only. */
  datatype TagCounts = TagCounts(worthWait: nat, dontWaste: nat)

  /** The object `getVoteStats` returns. */
  datatype VoteStats = VoteStats(
    season: int,
    episode: int,
    totalVotes: nat,
    percentage: nat,
    breakdown: seq<Entry>,
    tags: TagCounts)

  /**
   * The aggregation of `getVoteStats` over a show's votes: `null` for no
   * votes; otherwise the per-key counts, the tag counts, and a verdict read
   * from the head of the counts sorted by descending count.
   */
  function ComputeStats(votes: seq<Vote>): (r: Option<VoteStats>)
    ensures r.None? <==> |votes| == 0
    ensures r.Some? ==>
      && r.value.totalVotes == |votes|
      && TallyOf(r.value.breakdown, VoteKeys(votes))
      && |r.value.breakdown| > 0
      && var w := r.value.breakdown[FirstMax(r.value.breakdown)];
         && (r.value.season, r.value.episode) == KeyPair(w.key)
         && w.count <= |votes|
         && r.value.percentage == RoundedPercent(w.count, |votes|)
    ensures r.Some? ==>
      && r.value.tags.worthWait == TagCount(votes, WorthWait)
      && r.value.tags.dontWaste == TagCount(votes, DontWaste)
  {
    if |votes| == 0 then None
    else
      var counts := Tally(VoteKeys(votes));
      TallyHead(VoteKeys(votes));
      var top := SortDesc(counts)[0];
      var pair := KeyPair(top.key);
      Some(VoteStats(
        pair.0, pair.1,
        |votes|,
        RoundedPercent(top.count, |votes|),
        counts,
        TagCounts(TagCount(votes, WorthWait), TagCount(votes, DontWaste))))
  }

  /** The breakdown is the count table of the votes' keys. */
  lemma StatsBreakdown(votes: seq<Vote>)
    requires |votes| > 0
    ensures ComputeStats(votes).value.breakdown == Tally(VoteKeys(votes))
  {
  }

  /**
   * The count table of a non-empty key list is non-empty, and the head of
   * its descending sort is its first largest entry.
   */
  lemma TallyHead(keys: seq<string>)
    requires |keys| > 0
    ensures TallyOf(Tally(keys), keys)
    ensures |Tally(keys)| > 0
    ensures SortDesc(Tally(keys))[0] == Tally(keys)[FirstMax(Tally(keys))]
    ensures Tally(keys)[FirstMax(Tally(keys))].count <= |keys|
  {
    var counts := Tally(keys);
    TallyCorrect(keys);
    assert keys[0] in keys;
    SortHeadIsFirstMax(counts);
    EntryBelowTotal(counts, FirstMax(counts));
  }

  /** One entry's count is at most the sum of all counts. */
  lemma {:induction false} EntryBelowTotal(es: seq<Entry>, i: nat)
    requires i < |es|
    ensures es[i].count <= Total(es)
  {
    if i < |es| - 1 {
      EntryBelowTotal(es[..|es| - 1], i);
    }
  }

  /** `getVoteStats`: the statistics of the votes stored for `showId`. */
  function GetVoteStats(t: VoteTable, showId: int): (r: Option<VoteStats>)
    ensures r.None? <==> forall i :: 0 <= i < |t.rows| ==> t.rows[i].showId != showId
    ensures r.Some? ==> r.value.totalVotes == |VotesFor(t.rows, showId)|
  {
    VotesForEmpty(t.rows, showId);
    ComputeStats(VotesFor(t.rows, showId))
  }

  lemma VotesForEmpty(rows: seq<Vote>, showId: int)
    ensures |VotesFor(rows, showId)| == 0 <==> forall i :: 0 <= i < |rows| ==> rows[i].showId != showId
  {
    var votes := VotesFor(rows, showId);
    if |votes| > 0 {
      assert votes[0] in rows;
    } else {
      forall i | 0 <= i < |rows| ensures rows[i].showId != showId {
        assert rows[i] in rows;
      }
    }
  }

  /** The recognised tags together never count more votes than there are. */
  lemma StatsTagsBounded(votes: seq<Vote>)
    requires |votes| > 0
    ensures var st := ComputeStats(votes).value;
      st.tags.worthWait + st.tags.dontWaste <= st.totalVotes
  {
    TagCountsDisjoint(votes, WorthWait, DontWaste);
  }

  /** Every vote names a season and an episode that are not negative. */
  predicate NonNegative(votes: seq<Vote>) {
    forall i :: 0 <= i < |votes| ==> votes[i].season >= 0 && votes[i].episode >= 0
  }

  /** The number of votes for (season, episode). */
  function PairCount(votes: seq<Vote>, season: int, episode: int): nat {
    if |votes| == 0 then 0
    else
      var v := votes[|votes| - 1];
      PairCount(votes[..|votes| - 1], season, episode) + (if v.season == season && v.episode == episode then 1 else 0)
  }

  /** For non-negative numbers, counting keys is counting (season, episode) pairs. */
  lemma {:induction false} KeyCountIsPairCount(votes: seq<Vote>, season: int, episode: int)
    requires NonNegative(votes) && season >= 0 && episode >= 0
    ensures Occurrences(VoteKeys(votes), Key(season, episode)) == PairCount(votes, season, episode)
  {
    if |votes| > 0 {
      var pre := votes[..|votes| - 1];
      var v := votes[|votes| - 1];
      assert VoteKeys(votes)[..|votes| - 1] == VoteKeys(pre);
      KeyCountIsPairCount(pre, season, episode);
      if Key(v.season, v.episode) == Key(season, episode) {
        KeyInjective(v.season, v.episode, season, episode);
      }
    }
  }

  /**
   * For non-negative seasons and episodes the verdict is a (season,
   * episode) some vote names, no pair has more votes, and the percentage
   * is that pair's share of the votes, rounded.
   */
  lemma VerdictIsPlurality(votes: seq<Vote>)
    requires |votes| > 0 && NonNegative(votes)
    ensures var st := ComputeStats(votes).value;
      && (exists i :: 0 <= i < |votes| && votes[i].season == st.season && votes[i].episode == st.episode)
      && (forall i :: 0 <= i < |votes| ==>
            PairCount(votes, votes[i].season, votes[i].episode) <= PairCount(votes, st.season, st.episode))
      && PairCount(votes, st.season, st.episode) <= |votes|
      && st.percentage == RoundedPercent(PairCount(votes, st.season, st.episode), |votes|)
  {
    var st := ComputeStats(votes).value;
    var keys := VoteKeys(votes);
    var bd := st.breakdown;
    var m := FirstMax(bd);
    var w := bd[m];
    assert w.key in KeysOf(bd);
    var i :| 0 <= i < |votes| && keys[i] == w.key;
    KeyParse(votes[i].season, votes[i].episode);
    assert (st.season, st.episode) == (votes[i].season, votes[i].episode);
    KeyCountIsPairCount(votes, st.season, st.episode);
    forall j | 0 <= j < |votes|
      ensures PairCount(votes, votes[j].season, votes[j].episode) <= PairCount(votes, st.season, st.episode)
    {
      assert keys[j] in keys;
      var n := Find(bd, keys[j]).value;
      KeyCountIsPairCount(votes, votes[j].season, votes[j].episode);
      assert bd[n].count <= w.count;
    }
  }

  /**
   * The tie-break: every breakdown entry with as many votes as the
   * verdict's has its first vote no earlier than the verdict's first vote.
   */
  lemma VerdictTieBreak(votes: seq<Vote>)
    requires |votes| > 0
    ensures var st := ComputeStats(votes).value;
      var w := st.breakdown[FirstMax(st.breakdown)];
      forall j :: 0 <= j < |st.breakdown| && st.breakdown[j].count == w.count ==>
        && w.key in VoteKeys(votes) && st.breakdown[j].key in VoteKeys(votes)
        && FirstIndex(VoteKeys(votes), w.key) <= FirstIndex(VoteKeys(votes), st.breakdown[j].key)
  {
    StatsBreakdown(votes);
    TallyTieBreak(VoteKeys(votes));
  }

  /** The tie-break on a count table: entries counted as often as the first largest come no earlier. */
  lemma TallyTieBreak(keys: seq<string>)
    requires |keys| > 0
    ensures var bd := Tally(keys);
      && |bd| > 0
      && var m := FirstMax(bd);
         forall j :: 0 <= j < |bd| && bd[j].count == bd[m].count ==>
           && bd[m].key in keys && bd[j].key in keys
           && FirstIndex(keys, bd[m].key) <= FirstIndex(keys, bd[j].key)
  {
    TallyHead(keys);
    var bd := Tally(keys);
    var m := FirstMax(bd);
    forall j | 0 <= j < |bd| && bd[j].count == bd[m].count
      ensures bd[m].key in keys && bd[j].key in keys && FirstIndex(keys, bd[m].key) <= FirstIndex(keys, bd[j].key)
    {
      TiedEntryComesLater(bd, keys, m, j);
    }
  }

  /** In a count table, an entry tied with the first largest one has a first occurrence no earlier. */
  lemma TiedEntryComesLater(bd: seq<Entry>, keys: seq<string>, m: nat, j: nat)
    requires TallyOf(bd, keys) && IsFirstMax(bd, m)
    requires j < |bd| && bd[j].count == bd[m].count
    ensures bd[m].key in keys && bd[j].key in keys && FirstIndex(keys, bd[m].key) <= FirstIndex(keys, bd[j].key)
  {
    assert bd[m].key in KeysOf(bd) && bd[j].key in KeysOf(bd);
    assert m <= j;
  }

  /** When every vote names the same episode, it wins with 100 percent. */
  lemma UnanimousVerdict(votes: seq<Vote>, season: nat, episode: nat)
    requires |votes| > 0
    requires forall i :: 0 <= i < |votes| ==> votes[i].season == season && votes[i].episode == episode
    ensures var st := ComputeStats(votes).value;
      st.season == season && st.episode == episode && st.percentage == 100
  {
    var w := UnanimousEntry(votes, season, episode);
    KeyRoundTrip(season, episode);
  }

  /** The statistics of unanimous votes read off the entry of their one key, counting all of them. */
  lemma UnanimousEntry(votes: seq<Vote>, season: nat, episode: nat) returns (w: Entry)
    requires |votes| > 0
    requires forall i :: 0 <= i < |votes| ==> votes[i].season == season && votes[i].episode == episode
    ensures w == Entry(Key(season, episode), |votes|)
    ensures var st := ComputeStats(votes).value;
      (st.season, st.episode) == KeyPair(w.key) && st.percentage == RoundedPercent(|votes|, |votes|)
  {
    UniformVoteKeys(votes, season, episode);
    UniformWinner(VoteKeys(votes), Key(season, episode));
    w := VerdictEntry(votes);
  }

  lemma UniformVoteKeys(votes: seq<Vote>, season: nat, episode: nat)
    requires forall i :: 0 <= i < |votes| ==> votes[i].season == season && votes[i].episode == episode
    ensures forall i :: 0 <= i < |VoteKeys(votes)| ==> VoteKeys(votes)[i] == Key(season, episode)
  {
  }

  /** The first largest entry of a one-key count table is that key, counted once per element. */
  lemma UniformWinner(ks: seq<string>, k: string)
    requires |ks| > 0 && forall i :: 0 <= i < |ks| ==> ks[i] == k
    ensures |Tally(ks)| > 0 && Tally(ks)[FirstMax(Tally(ks))] == Entry(k, |ks|)
  {
    TallyHead(ks);
    UniformTally(ks, k);
  }

  /** The statistics read off the first largest entry of the votes' count table. */
  lemma VerdictEntry(votes: seq<Vote>) returns (w: Entry)
    requires |votes| > 0
    ensures var bd := Tally(VoteKeys(votes));
      var st := ComputeStats(votes).value;
      && |bd| > 0 && w == bd[FirstMax(bd)] && w.count <= |votes|
      && (st.season, st.episode) == KeyPair(w.key)
      && st.percentage == RoundedPercent(w.count, |votes|)
  {
    StatsBreakdown(votes);
    var st := ComputeStats(votes).value;
    w := st.breakdown[FirstMax(st.breakdown)];
  }

  /** A count table of one repeated key has that key, counted once per element. */
  lemma UniformTally(ks: seq<string>, k: string)
    requires forall i :: 0 <= i < |ks| ==> ks[i] == k
    ensures forall a :: 0 <= a < |Tally(ks)| ==> Tally(ks)[a].key == k && Tally(ks)[a].count == |ks|
  {
    var es := Tally(ks);
    TallyCorrect(ks);
    UniformOccurrences(ks, k);
    forall a | 0 <= a < |es| ensures es[a].key == k {
      assert es[a].key in KeysOf(es);
    }
  }

  lemma {:induction false} UniformOccurrences(ks: seq<string>, k: string)
    requires forall i :: 0 <= i < |ks| ==> ks[i] == k
    ensures Occurrences(ks, k) == |ks|
  {
    if |ks| > 0 {
      UniformOccurrences(ks[..|ks| - 1], k);
    }
  }

  lemma {:induction false} DistinctOccurrences(ks: seq<string>, k: string)
    requires forall i, j :: 0 <= i < j < |ks| ==> ks[i] != ks[j]
    requires k in ks
    ensures Occurrences(ks, k) == 1
  {
    var pre := ks[..|ks| - 1];
    if ks[|ks| - 1] == k {
      assert k !in pre;
      OccurrencesAbsent(pre, k);
    } else {
      DistinctOccurrences(pre, k);
    }
  }

  /**
   * The percentage can be 0: when more than 200 votes all name different
   * episodes, the winner's one vote rounds to 0 percent.
   */
  lemma SpreadVotesGiveZeroPercent(votes: seq<Vote>)
    requires |votes| > 200 && NonNegative(votes)
    requires forall i, j :: 0 <= i < j < |votes| ==>
      (votes[i].season, votes[i].episode) != (votes[j].season, votes[j].episode)
    ensures ComputeStats(votes).value.percentage == 0
  {
    var st := ComputeStats(votes).value;
    var keys := VoteKeys(votes);
    var w := st.breakdown[FirstMax(st.breakdown)];
    DistinctPairsDistinctKeys(votes);
    assert w.key in KeysOf(st.breakdown);
    DistinctOccurrences(keys, w.key);
    RoundedPercentOfOne(|votes|);
  }

  lemma DistinctPairsDistinctKeys(votes: seq<Vote>)
    requires NonNegative(votes)
    requires forall i, j :: 0 <= i < j < |votes| ==>
      (votes[i].season, votes[i].episode) != (votes[j].season, votes[j].episode)
    ensures forall i, j :: 0 <= i < j < |votes| ==> VoteKeys(votes)[i] != VoteKeys(votes)[j]
  {
    forall i, j | 0 <= i < j < |votes| ensures VoteKeys(votes)[i] != VoteKeys(votes)[j] {
      if VoteKeys(votes)[i] == VoteKeys(votes)[j] {
        KeyInjective(votes[i].season, votes[i].episode, votes[j].season, votes[j].episode);
      }
    }
  }

  lemma ExampleKeys()
    ensures Key(1, 1) == "1-1" && Key(1, 2) == "1-2"
  {
    assert NatStr(1) == "1" && NatStr(2) == "2";
  }

  lemma ExampleTally()
    ensures Tally(["1-1", "1-1", "1-2"]) == [Entry("1-1", 2), Entry("1-2", 1)]
  {
    var ks := ["1-1", "1-1", "1-2"];
    assert ks[..2] == ["1-1", "1-1"];
    assert ks[..2][..1] == ["1-1"];
    assert ["1-1"][..0] == [];
    assert Tally(["1-1"]) == [Entry("1-1", 1)];
    assert Tally(["1-1", "1-1"]) == [Entry("1-1", 2)];
  }

  /**
   * Votes for S1E1, S1E1 and S1E2 give the verdict S1E1 with 3 votes,
   * 67 percent, and the breakdown {"1-1": 2, "1-2": 1}.
   */
  lemma ThreeVoteExample(a: Vote, b: Vote, c: Vote)
    requires a.season == 1 && a.episode == 1 && b.season == 1 && b.episode == 1
    requires c.season == 1 && c.episode == 2
    ensures var st := ComputeStats([a, b, c]).value;
      && st.season == 1 && st.episode == 1 && st.totalVotes == 3 && st.percentage == 67
      && st.breakdown == [Entry("1-1", 2), Entry("1-2", 1)]
  {
    var votes := [a, b, c];
    ExampleVoteKeys(a, b, c);
    ExampleTally();
    StatsBreakdown(votes);
    var w := VerdictEntry(votes);
    ExampleFirstMax();
    KeyRoundTrip(1, 1);
    ExamplePercent();
  }

  lemma ExampleVoteKeys(a: Vote, b: Vote, c: Vote)
    requires a.season == 1 && a.episode == 1 && b.season == 1 && b.episode == 1
    requires c.season == 1 && c.episode == 2
    ensures VoteKeys([a, b, c]) == ["1-1", "1-1", "1-2"]
  {
    ExampleKeys();
  }

  lemma ExampleFirstMax()
    ensures FirstMax([Entry("1-1", 2), Entry("1-2", 1)]) == 0
  {
    var bd := [Entry("1-1", 2), Entry("1-2", 1)];
    assert bd[..1] == [Entry("1-1", 2)];
  }

  lemma ExamplePercent()
    ensures RoundedPercent(2, 3) == 67
  {
  }
}

=== FILE: voting_widget.dfy ===
/**
 * The state of the voting form in `src/components/VotingWidget.tsx`: the
 * season and episode pickers, the two tag buttons, the episode reset when a
 * season's episode list arrives, and the submit button with its messages.
 */
module VotingWidget {
  import opened Wrappers
  import opened Votes
  import opened VoteRoute

  /** The message box: its kind and its text. */
  datatype Message = Message(success: bool, text: string)

  datatype Form = Form(
    season: int,
    episode: int,
    tag: Option<string>,
    episodesCount: int,
    isLoadingEpisodes: bool,
    isSubmitting: bool,
    message: Option<Message>)

  /** The `useState` initial values. */
  const Init := Form(1, 1, None, 20, false, false, None)

  // ---------------------------------------------------------------------
  // Tag buttons
  // ---------------------------------------------------------------------

  datatype TagButton = WorthWaitButton | DontWasteButton

  /** The tag a button sets. */
  function ButtonTag(b: TagButton): (t: string)
    ensures t == WorthWait || t == DontWaste
  {
    match b
    case WorthWaitButton => WorthWait
    case DontWasteButton => DontWaste
  }

  predicate ValidTag(t: Option<string>) {
    t.None? || t.value == WorthWait || t.value == DontWaste
  }

  /** A button is drawn as selected iff the form's tag is its tag. */
  predicate IsSelected(f: Form, b: TagButton) {
    f.tag == Some(ButtonTag(b))
  }

  /**
   * `setTag(tag === t ? null : t)`: clicking the selected button clears the
   * tag, clicking the other one selects it; nothing else changes.
   */
  function ToggleTag(f: Form, b: TagButton): (r: Form)
    ensures IsSelected(f, b) ==> r.tag.None?
    ensures !IsSelected(f, b) ==> IsSelected(r, b)
    ensures r == f.(tag := r.tag)
  {
    f.(tag := if f.tag == Some(ButtonTag(b)) then None else Some(ButtonTag(b)))
  }

  /** The two buttons never show as selected together, and a toggle keeps the tag valid. */
  lemma AtMostOneSelected(f: Form, b: TagButton)
    ensures !(IsSelected(f, WorthWaitButton) && IsSelected(f, DontWasteButton))
    ensures ValidTag(ToggleTag(f, b).tag)
  {
    assert WorthWait != DontWaste by {
      assert WorthWait[0] != DontWaste[0];
    }
  }

  /**
   * Clicking the same button twice restores the form exactly when the tag
   * was unset or already that button's: if the other tag was selected, the
   * two clicks end with no tag.
   */
  lemma ToggleTwice(f: Form, b: TagButton)
    ensures ToggleTag(ToggleTag(f, b), b) == f <==> f.tag.None? || IsSelected(f, b)
    ensures !(f.tag.None? || IsSelected(f, b)) ==> ToggleTag(ToggleTag(f, b), b).tag.None?
  {
  }

  // ---------------------------------------------------------------------
  // Season and episode pickers
  // ---------------------------------------------------------------------

  /** `Array.from({ length: n }, (_, i) => i + 1)`; a negative length gives no options. */
  function Options(n: int): (r: seq<int>)
    ensures |r| == if n < 0 then 0 else n
    ensures forall i :: 0 <= i < |r| ==> r[i] == i + 1
  {
    if n <= 0 then [] else Options(n - 1) + [n]
  }

  /** The options are exactly 1..n. */
  lemma {:induction false} OptionsAreRange(n: int, x: int)
    ensures x in Options(n) <==> 1 <= x <= n
  {
    var r := Options(n);
    if 1 <= x <= n {
      assert r[x - 1] == x;
    }
  }

  function SeasonOptions(totalSeasons: int): seq<int> {
    Options(totalSeasons)
  }

  function EpisodeOptions(f: Form): seq<int> {
    Options(f.episodesCount)
  }

  /** A season is picked: the episode list starts loading for it. */
  function PickSeason(f: Form, s: int): (r: Form)
    ensures r.season == s && r.isLoadingEpisodes
    ensures r == f.(season := s, isLoadingEpisodes := true)
  {
    f.(season := s, isLoadingEpisodes := true)
  }

  function PickEpisode(f: Form, e: int): (r: Form)
    ensures r == f.(episode := e)
  {
    f.(episode := e)
  }

  /**
   * An episode fetch has finished. `captured` is the `episode` of the render
   * whose effect started this fetch: the closure compares that value, not
   * the episode chosen since. `Some(n)` is a response with an `episodes`
   * array of length n; `None` is a response without one or a thrown error.
   * With n episodes the count becomes n and, when the captured episode is
   * past the end, the episode resets to 1; loading is off either way.
   */
  function EpisodesLoaded(f: Form, captured: int, episodes: Option<nat>): (r: Form)
    ensures !r.isLoadingEpisodes
    ensures episodes.None? ==> r == f.(isLoadingEpisodes := false)
    ensures episodes.Some? ==>
      && r.episodesCount == episodes.value
      && (captured <= episodes.value ==> r.episode == f.episode)
      && (captured > episodes.value ==> r.episode == 1)
      && r == f.(episodesCount := r.episodesCount, episode := r.episode, isLoadingEpisodes := false)
  {
    match episodes
    case None => f.(isLoadingEpisodes := false)
    case Some(n) =>
      f.(episodesCount := n, episode := if captured > n then 1 else f.episode, isLoadingEpisodes := false)
  }

  /**
   * After n >= 1 episodes load, the chosen episode is one of the options
   * exactly when the captured episode was past the end (it resets to 1) or
   * the current episode is at most n. When no other event came between the
   * fetch's start and its end, the captured episode is the current one and
   * the chosen episode is always offered.
   */
  lemma LoadedEpisodeIsOffered(f: Form, captured: int, n: nat)
    requires f.episode >= 1 && n >= 1
    ensures var r := EpisodesLoaded(f, captured, Some(n));
      r.episode in EpisodeOptions(r) <==> captured > n || f.episode <= n
    ensures captured == f.episode ==>
      var r := EpisodesLoaded(f, captured, Some(n));
      r.episode in EpisodeOptions(r)
  {
    var r := EpisodesLoaded(f, captured, Some(n));
    OptionsAreRange(n, r.episode);
  }

  /**
   * Two fetches in flight: a fetch for a season of 5 episodes started while
   * episode 3 was chosen, then episode 8 is chosen from a longer season's
   * options before the fetch ends. The reset compares the captured 3, so
   * episode 8 stays chosen with only 5 offered.
   */
  lemma OverlappingFetchesKeepEpisodePastCount(f: Form)
    requires f.episode == 8
    ensures var r := EpisodesLoaded(f, 3, Some(5));
      r.episode == 8 && r.episodesCount == 5 && r.episode !in EpisodeOptions(r)
  {
    OptionsAreRange(5, 8);
  }

  // ---------------------------------------------------------------------
  // Submitting
  // ---------------------------------------------------------------------

  /** `disabled={isSubmitting || isLoadingEpisodes}`, negated. */
  predicate CanSubmit(f: Form) {
    !(f.isSubmitting || f.isLoadingEpisodes)
  }

  /**
   * The request the form sends, `{ tmdbId, season, episode, tag }`, as the
   * handler sees it together with the connection's headers.
   */
  function Payload(tmdbId: int, f: Form, userAgent: Option<string>, clientAddress: Option<string>,
                   forwardedFor: Option<string>): (req: VoteRequest)
    ensures req.tmdbId == Some(tmdbId) && req.season == Some(f.season) && req.episode == Some(f.episode)
    ensures req.tag == f.tag
  {
    VoteRequest(Some(tmdbId), Some(f.season), Some(f.episode), f.tag, userAgent, clientAddress, forwardedFor)
  }

  function BeginSubmit(f: Form): (r: Form)
    ensures r.isSubmitting && r.message.None? && !CanSubmit(r)
    ensures r == f.(isSubmitting := true, message := None)
  {
    f.(isSubmitting := true, message := None)
  }

  /** What came back: the status was ok or not, with the body's `error` field; or something threw. */
  datatype Outcome = Replied(ok: bool, error: Option<string>) | NetworkFailure

  const Recorded := "VOTE RECORDED. DATABASE UPDATING..."
  const SubmissionError := "SUBMISSION ERROR"
  const NetworkError := "NETWORK ERROR. PLEASE RETRY."

  /** The message for an outcome: success only for an ok reply; `data.error || 'SUBMISSION ERROR'` otherwise. */
  function FinishSubmit(f: Form, outcome: Outcome): (r: Form)
    ensures !r.isSubmitting && r.message.Some?
    ensures r.message.value.success <==> outcome.Replied? && outcome.ok
    ensures outcome.Replied? && outcome.ok ==> r.message.value.text == Recorded
    ensures outcome.Replied? && !outcome.ok ==>
      r.message.value.text == OrElse(outcome.error, SubmissionError)
    ensures outcome.NetworkFailure? ==> r.message.value.text == NetworkError
    ensures r == f.(isSubmitting := false, message := r.message)
  {
    var m := match outcome
      case Replied(ok, error) =>
        if ok then Message(true, Recorded) else Message(false, OrElse(error, SubmissionError))
      case NetworkFailure => Message(false, NetworkError);
    f.(isSubmitting := false, message := Some(m))
  }

  // ---------------------------------------------------------------------
  // What a user can do, and what it keeps
  // ---------------------------------------------------------------------

  datatype Event =
    | Toggle(button: TagButton)
    | ChooseSeason(s: int)
    | ChooseEpisode(e: int)
    | Loaded(captured: int, episodes: Option<nat>)
    | Submit
    | Finished(outcome: Outcome)

  /**
   * The events the rendered form offers: seasons and episodes from the
   * option lists (the episode picker is disabled while loading), and
   * submit only while enabled.
   */
  predicate Offered(f: Form, totalSeasons: int, ev: Event) {
    match ev
    case ChooseSeason(s) => s in SeasonOptions(totalSeasons)
    case ChooseEpisode(e) => !f.isLoadingEpisodes && e in EpisodeOptions(f)
    case Submit => CanSubmit(f)
    case _ => true
  }

  function Step(f: Form, ev: Event): Form {
    match ev
    case Toggle(b) => ToggleTag(f, b)
    case ChooseSeason(s) => PickSeason(f, s)
    case ChooseEpisode(e) => PickEpisode(f, e)
    case Loaded(captured, episodes) => EpisodesLoaded(f, captured, episodes)
    case Submit => BeginSubmit(f)
    case Finished(outcome) => FinishSubmit(f, outcome)
  }

  /** Season and episode are positive and the tag is null, 'worth-wait' or 'dont-waste'. */
  predicate Sane(f: Form) {
    f.season >= 1 && f.episode >= 1 && ValidTag(f.tag)
  }

  lemma StepKeepsSane(f: Form, totalSeasons: int, ev: Event)
    requires Sane(f) && Offered(f, totalSeasons, ev)
    ensures Sane(Step(f, ev))
  {
    match ev
    case Toggle(b) => AtMostOneSelected(f, b);
    case ChooseSeason(s) => OptionsAreRange(totalSeasons, s);
    case ChooseEpisode(e) => OptionsAreRange(f.episodesCount, e);
    case _ =>
  }

  /**
   * Runs the events in order, stopping at the first one the form does not
   * offer. A `Loaded` event may carry any captured episode, so the runs
   * include every interleaving of overlapping episode fetches.
   */
  function Run(f: Form, totalSeasons: int, evs: seq<Event>): (r: Form)
    decreases |evs|
  {
    if |evs| == 0 || !Offered(f, totalSeasons, evs[0]) then f
    else Run(Step(f, evs[0]), totalSeasons, evs[1..])
  }

  /** Every form reachable from the initial one is sane. */
  lemma {:induction false} RunKeepsSane(f: Form, totalSeasons: int, evs: seq<Event>)
    requires Sane(f)
    ensures Sane(Run(f, totalSeasons, evs))
    decreases |evs|
  {
    if |evs| > 0 && Offered(f, totalSeasons, evs[0]) {
      StepKeepsSane(f, totalSeasons, evs[0]);
      RunKeepsSane(Step(f, evs[0]), totalSeasons, evs[1..]);
    }
  }

  /**
   * So a reachable form's payload always passes the handler's missing-field
   * check when the show's TMDB id is not 0, its season and episode are
   * positive, and its tag is one the statistics count or none.
   */
  lemma ReachablePayloadIsAccepted(tmdbId: int, totalSeasons: int, evs: seq<Event>,
                                   userAgent: Option<string>, clientAddress: Option<string>,
                                   forwardedFor: Option<string>)
    requires tmdbId != 0
    ensures var f := Run(Init, totalSeasons, evs);
      var req := Payload(tmdbId, f, userAgent, clientAddress, forwardedFor);
      && !MissingFields(req) && ValidTag(req.tag)
      && req.season.value >= 1 && req.episode.value >= 1
  {
    RunKeepsSane(Init, totalSeasons, evs);
  }
}

=== FILE: wrappers.dfy ===
/** The optional value used wherever the source has `null` or `undefined`. */
module Wrappers {

  datatype Option<+T> = None | Some(value: T) {

    /** The wrapped value, or `default` when there is none. */
    function GetOr(default: T): T {
      match this
      case Some(v) => v
      case None => default
    }
  }
}
